=== FILE: README.md ===
# Client state machines of the career dashboard, in Dafny

This project models the client-side logic of a React dashboard that sits on
a hosted identity provider and database. It covers six components:

- **ProtectedRoute** (module `ProtectedRoute`) is the route gate around
  every protected page. It keeps three flags: `loading`, `authenticated` and
  `emailConfirmed`. A one-shot session fetch and any number of auth-change
  notifications update them, and a pure decision turns them into a spinner,
  a redirect to `/login`, a redirect to `/verify-email`, or the page.
- **DangerZone** (module `DangerZone`) is the account-termination modal.
  Its submit control is enabled only when the text `DELETE MY ACCOUNT` is
  typed exactly and no call is in flight. On submit it makes one
  `delete-account` call. Success signs out and then navigates home. Failure
  shows the error.
- **CVWidget** (module `CvWidget`) is the dashboard CV card. It looks up the
  CV record and renders one of three views. Its download sends
  `Bearer <access token>` to the `download-cv` function and opens the signed
  URL it returns.
- **verify-email page** (module `VerifyEmail`) resends the sign-up
  confirmation e-mail and shows the outcome as a message. The message is
  styled as a success exactly when its wording contains `resent`. The page
  can also log out.
- **Wishlist** and **CoverLettersList** (modules `Wishlist`, `CoverLetters`)
  keep local lists of records. An insert is prepended. A delete filters the
  list by id. A cover letter downloads as `cover-letter-<first 8 id chars>.txt`.

Shared vocabulary lives in module `Common`:

- the `Option` and `Result` types;
- the user and session records;
- JavaScript truthiness of optional strings (absent and `""` are falsy);
- the `err.message || fallback` idiom;
- substring search;
- filter-by-id (`RemoveKey`), proved to keep exactly the other records in
  their original order.

Every remote call is left abstract: `getSession`, `onAuthStateChange`,
`getUser`, `functions.invoke`, table queries, `resend` and `signOut`. A call
either becomes an event that delivers a `Result`, or a parameter of the
function that continues after the `await`.

A function returns, in order, the calls it starts, next to the new state.
There are three exceptions:

- A lookup whose answer is passed in as a parameter is not logged as an
  effect. These are the `getUser()` and `user_cvs` select of
  `CvWidget.FetchCv`, the `getSession()` of `CvWidget.FinishDownload`, and
  the `getUser()` of `VerifyEmail.SettleLookup`. The table selects of
  `Wishlist.FetchWishlist` and `CoverLetters.FetchLetters` are logged.
- Functions that start no call of their own return the state alone, for
  example `ProtectedRoute.Step`, `CvWidget.FetchCv`,
  `CvWidget.StartDownload` and `VerifyEmail.StartResend`.
- Functions of a handler that keeps no state of its own return only what
  it does: `VerifyEmail.SettleSignOut` and `VerifyEmail.Logout` return
  the calls alone, and `CoverLetters.HandleDownload` returns the one file
  it saves.

Asynchronous interleaving is an explicit sequence of events applied one at a
time (`ProtectedRoute.Run`, `DangerZone.Replay`, `VerifyEmail.Replay`). On the
verify-email page every `await` of a handler is a separate settlement event,
so clicks can fall between a call and its result. The delete-account panel
has one settlement event, for the `delete-account` call; the sign-out
awaited after it is folded into the same step (see "## Left out").

The list handlers are split at their `await`. The part after it
(`Wishlist.SettleAdd`, `Wishlist.SettleRemove`, `CoverLetters.SettleDelete`)
takes the list the click's closure captured. That list is not necessarily
the list on screen when the call settles. `Wishlist.AddItem`,
`Wishlist.RemoveItem` and `CoverLetters.HandleDelete` compose the two parts
with nothing happening in between. The list fetch handlers read no captured
state: they write the fetched data, or keep the current list on error. They
are single functions.

Behaviour of the code that the model keeps:

- A rejected `getSession()` throws inside `checkAuth` before any setter
  runs, so the gate keeps showing the spinner. It does not fail closed.
  `SessionFetchRejected` changes nothing, and `LoadingUntilFetched` shows
  that the gate stays loading until a fetch resolves.
- The gate has no liveness flag. A fetch result that arrives after a
  notification overwrites it (`FetchOverwritesEarlierChange`). Whatever was
  delivered last decides.
- After a successful deletion, `navigate('/')` does not replace history
  (`Navigate(HomePath, false)`).
- `handleDeleteAccount` itself checks only the phrase. The `loading` guard
  against a second call is the submit button's `disabled` attribute. The
  confirmation field and both modal buttons are rendered only while the
  modal is shown. So `Act` treats a click on a disabled or hidden control
  as doing nothing.
- The list handlers set the list from the captured list, not the current
  one. If two removes are in flight at once and both succeed, the row the
  first one removed comes back (`Wishlist.OverlappingRemovesRestoreRow`,
  `CoverLetters.OverlappingDeletesRestoreLetter`).
- `handleLogout` awaits `signOut()` before navigating, so a rejected
  sign-out never reaches `navigate('/login')`. The Log Out button is never
  disabled, so it can be clicked while a resend is outstanding, and the
  resend call can then fall between the sign-out and the navigation
  (`VerifyEmail.LogoutDuringResend`).
- A gate that renders a redirect leaves its route, so React unmounts it and
  its cleanup unsubscribes. No later event reaches that instance, and
  `/verify-email` is not behind the gate. `ProtectedRoute.Run` applies any
  sequence of events, including events after a redirect has been rendered.
  Its lemmas describe the gate's state function, not what a user on a
  redirected page sees. A user who confirms the address in another tab
  stays on `/verify-email`.

## Model

| member | source | states |
|---|---|---|
| ProtectedRoute.Init | src/components/feature/ProtectedRoute.tsx:10-12 | the gate starts loading with both flags false |
| ProtectedRoute.Observe | src/components/feature/ProtectedRoute.tsx:17-20 | applying a session sets `authenticated` iff the session exists and `emailConfirmed` iff its user's `email_confirmed_at` is present and non-empty; `loading` is untouched |
| ProtectedRoute.Step | src/components/feature/ProtectedRoute.tsx:15-30 | only a resolved fetch clears `loading`; a notification leaves it unchanged; a rejected fetch changes nothing; every event preserves `emailConfirmed ==> authenticated` |
| ProtectedRoute.Run | src/components/feature/ProtectedRoute.tsx:15-30 | no event sets `loading` again, so a gate that has finished loading stays loaded over any later events |
| ProtectedRoute.Render | src/components/feature/ProtectedRoute.tsx:35-52 | spinner iff loading; once loaded, login redirect (with replace) iff unauthenticated, verify-email redirect (with replace) iff authenticated but unconfirmed, the page iff both flags hold |
| ProtectedRoute.LoadingUntilFetched | src/components/feature/ProtectedRoute.tsx:19-29 | after any event sequence the gate is loading iff it started loading and no fetch has resolved; early notifications and rejected fetches leave it loading |
| ProtectedRoute.SpinnerUntilFetched | src/components/feature/ProtectedRoute.tsx:10-41 | from the initial state (loading, both flags false) the gate shows the spinner, never a redirect, exactly until a fetch has resolved |
| ProtectedRoute.RunConsistent | src/components/feature/ProtectedRoute.tsx:19-29 | `emailConfirmed ==> authenticated` holds after every event sequence |
| ProtectedRoute.LastUpdateWins | src/components/feature/ProtectedRoute.tsx:16-30 | after any events, both flags are those of the most recently delivered session, whether a fetch or a notification delivered it |
| ProtectedRoute.GateShowsLatestVerdict | src/components/feature/ProtectedRoute.tsx:14-52 | once a fetch has resolved, the rendered view is the verdict (unauthenticated / unverified / authorized) of the latest delivered session |
| ProtectedRoute.ChildrenIffConfirmed | src/components/feature/ProtectedRoute.tsx:43-52 | the page is rendered iff a fetch has resolved and the latest session exists with a non-empty confirmation timestamp |
| ProtectedRoute.FetchOverwritesEarlierChange | src/components/feature/ProtectedRoute.tsx:16-21 | a fetch result applied after a notification yields the same state as the fetch alone |
| ProtectedRoute.EmptyTimestampIsUnverified | src/components/feature/ProtectedRoute.tsx:20 | a session whose `email_confirmed_at` is the empty string is unverified |
| ProtectedRoute.VerifiedElsewhere | src/components/feature/ProtectedRoute.tsx:26-50 | for `Step` and `Render`: a loaded gate whose flags give the verify-email redirect gives the page after one notification carrying a confirmed session, with no fetch (in the running program the redirect unmounts the gate first) |
| ProtectedRoute.HostStep | src/components/feature/ProtectedRoute.tsx:24-33 | React's rule for an effect with an empty dependency list: an unmounted instance gets no more calls; the subscription is taken only on the first commit and released only by unmounting a committed instance; an unmount before the first commit, which stands for a thrown-away render, changes nothing |
| ProtectedRoute.SubscriptionOnce | src/components/feature/ProtectedRoute.tsx:24-33 | over any commits and unmounts, the fetch and the subscription are started once, on the first commit, and the unsubscribe happens once, only when a committed instance unmounts |
| DangerZone.Init | src/pages/profile/components/DangerZone.tsx:9-12 | the modal starts hidden with empty text, not loading and no error, so neither modal button can be clicked |
| DangerZone.HandleDeleteAccount | src/pages/profile/components/DangerZone.tsx:14-23 | with any text other than the exact phrase nothing changes and nothing is called; with it, `loading` is set, `error` cleared, modal and input kept, and exactly one `delete-account` call carrying the phrase is made |
| DangerZone.SubmitEnabled | src/pages/profile/components/DangerZone.tsx:110-112 | a click on an enabled submit control always gets past the handler's own phrase check and makes exactly one call carrying the phrase |
| DangerZone.CancelEnabled | src/pages/profile/components/DangerZone.tsx:103-112 | whenever submit can be clicked, cancel can be clicked too |
| DangerZone.SettleDelete | src/pages/profile/components/DangerZone.tsx:25-34 | success signs out then navigates to `/` without replace and leaves `loading` set; failure shows the error's message or `Failed to delete account`, clears `loading`, keeps modal and input, and calls nothing |
| DangerZone.Deliver | src/pages/profile/components/DangerZone.tsx:14-112 | a settlement with no call outstanding changes nothing; a settlement ends the outstanding call and a successful one marks the account deleted; a user action starts a call exactly when it issues one |
| DangerZone.Act | src/pages/profile/components/DangerZone.tsx:39-127 | opening shows the modal; while it is hidden, typing, cancel and submit change nothing and call nothing, because they are rendered only inside it; typing stores exactly the typed text; cancel hides the modal only when not loading; submit issues a call iff the modal is shown, the input is exactly the phrase and nothing is in flight, and the modal stays shown |
| DangerZone.LowerCaseStaysDisabled | src/pages/profile/components/DangerZone.tsx:86-90 | typing `delete my account` (the upper-case styling is cosmetic) leaves submit disabled |
| DangerZone.CancelKeepsInput | src/pages/profile/components/DangerZone.tsx:103-106 | cancel keeps the typed text, the error and the flag; it hides the modal only while idle |
| DangerZone.ReplayInvariant | src/pages/profile/components/DangerZone.tsx:14-34 | over any sequence of user actions and settlements, every call carries the phrase, each call beyond the first follows a failure, a call in flight keeps the modal shown, sign-out happens once and only after success, and each sign-out is immediately followed by the navigation home |
| DangerZone.NoReentrantDelete | src/pages/profile/components/DangerZone.tsx:112 | the number of `delete-account` calls never exceeds the number of failed calls plus one |
| DangerZone.InFlightBlocksSubmit | src/pages/profile/components/DangerZone.tsx:18 | while a call is outstanding, a submit click issues nothing |
| DangerZone.ModalShownWhileInFlight | src/pages/profile/components/DangerZone.tsx:103-106 | while a call is outstanding the modal stays shown, because cancel is disabled until the call settles |
| DangerZone.HiddenSubmitIssuesNothing | src/pages/profile/components/DangerZone.tsx:50-112 | after the phrase is typed and the modal cancelled, submit cannot be reached; reopening shows the kept text and submit then issues the call |
| DangerZone.QuotaExceededScenario | src/pages/profile/components/DangerZone.tsx:31-34 | after the exact phrase and a failure reading "quota exceeded", the error is shown verbatim, the modal and text stay, no sign-out occurs, and submit is enabled again |
| CvWidget.Init | src/pages/dashboard/components/CVWidget.tsx:13-15 | the card starts loading with no record and no download, so it shows the spinner and the download button cannot be clicked |
| CvWidget.FetchCv | src/pages/dashboard/components/CVWidget.tsx:21-40 | `loading` is cleared on every path (no user, query answered, thrown error); the record is replaced only when the query returned one |
| CvWidget.Render | src/pages/dashboard/components/CVWidget.tsx:86-144 | spinner iff loading; details of the stored record iff loaded with a record; the empty state otherwise |
| CvWidget.FirstLookupShows | src/pages/dashboard/components/CVWidget.tsx:13-34 | after the first lookup the card shows the returned record, or the empty state when none came back |
| CvWidget.AuthorizationHeader | src/pages/dashboard/components/CVWidget.tsx:48-52 | the header is exactly `Bearer ` followed by the token |
| CvWidget.HeaderRoundTrip | src/pages/dashboard/components/CVWidget.tsx:50 | the token read back from the header is the session's access token |
| CvWidget.HeaderInjective | src/pages/dashboard/components/CVWidget.tsx:50 | different tokens give different headers |
| CvWidget.DownloadEnabled | src/pages/dashboard/components/CVWidget.tsx:86-109 | the download button can be clicked exactly on a loaded card that holds a record while no download runs |
| CvWidget.StartDownload | src/pages/dashboard/components/CVWidget.tsx:44 | entering the download sets `downloading` and changes nothing else |
| CvWidget.FinishDownload | src/pages/dashboard/components/CVWidget.tsx:45-63 | `downloading` is cleared on every exit; with no session nothing is called; a failed session lookup or call gives the fixed alert `Failed to download CV`; with a session the call carries the bearer header, then a window opens only for a non-empty signed URL |
| CvWidget.DownloadNeedsSession | src/pages/dashboard/components/CVWidget.tsx:45-57 | `download-cv` is invoked iff there is a session, and a link is opened iff that call succeeded with a non-empty signed URL |
| CvWidget.DownloadFlagRestored | src/pages/dashboard/components/CVWidget.tsx:42-64 | a download started from the enabled button disables it while running and then leaves the card exactly as before |
| VerifyEmail.Init | src/pages/auth/verify-email/page.tsx:7-8 | the page starts not loading and with no message |
| VerifyEmail.StartResend | src/pages/auth/verify-email/page.tsx:12 | entering a resend sets `loading` and keeps the message |
| VerifyEmail.ResendEnabled | src/pages/auth/verify-email/page.tsx:56 | the resend button is enabled on the first render, since `loading` starts false |
| VerifyEmail.SettleLookup | src/pages/auth/verify-email/page.tsx:13-26 | a thrown lookup ends with the error's message or `Failed to resend email.` and no call; a user without an e-mail ends with `No user email found` and no call; otherwise the state is kept (still loading) and one `signup` resend to that non-empty address is issued |
| VerifyEmail.SettleResend | src/pages/auth/verify-email/page.tsx:21-26 | after the resend settles, `loading` is cleared and the message is the fixed success text, or the error's message, or `Failed to resend email.` |
| VerifyEmail.FinishResend | src/pages/auth/verify-email/page.tsx:10-28 | with nothing in between: `loading` is cleared on every path; without a user e-mail the message is `No user email found` and nothing is called; otherwise one `signup` resend for that e-mail, then the fixed success text or the error's message or `Failed to resend email.` |
| VerifyEmail.ResendReenables | src/pages/auth/verify-email/page.tsx:12-26 | a resend started from the enabled button disables it while running and re-enables it afterwards on every path |
| VerifyEmail.SettleSignOut | src/pages/auth/verify-email/page.tsx:31-32 | a resolved sign-out navigates to `/login` without replace; a rejected one navigates nowhere |
| VerifyEmail.Logout | src/pages/auth/verify-email/page.tsx:30-33 | with nothing in between: logout signs out first, then navigates to `/login` without replace exactly when the sign-out resolved |
| VerifyEmail.ResentTextIsSuccess | src/pages/auth/verify-email/page.tsx:48 | the success text contains `resent`, so it gets the success style |
| VerifyEmail.NoEmailTextIsError | src/pages/auth/verify-email/page.tsx:14 | `No user email found` does not contain `resent`, so it gets the error style |
| VerifyEmail.ResendFailedTextIsError | src/pages/auth/verify-email/page.tsx:24 | `Failed to resend email.` does not contain `resent`, so it gets the error style |
| VerifyEmail.StyleFollowsWording | src/pages/auth/verify-email/page.tsx:48 | the resulting message is success-styled iff the resend succeeded or the error text shown instead contains `resent` |
| VerifyEmail.SuccessStyled | src/pages/auth/verify-email/page.tsx:48 | a message shorter than `resent` never gets the success style |
| VerifyEmail.Deliver | src/pages/auth/verify-email/page.tsx:10-67 | a click on the disabled resend button and a settlement with no matching call outstanding change nothing; a resend click starts the lookup and sets `loading`; each Log Out click signs out at once and adds a waiting logout; a sign-out settling for a waiting logout issues exactly its continuation |
| VerifyEmail.ReplayShape | src/pages/auth/verify-email/page.tsx:10-67 | over any interleaving of clicks and settlements, including Log Out while a resend is outstanding: the page is loading exactly while a resend is outstanding, every resend goes to a non-empty address, every navigation goes to `/login` after a sign-out, and navigations plus waiting logouts never outnumber sign-outs |
| VerifyEmail.LogoutDuringResend | src/pages/auth/verify-email/page.tsx:13-67 | Log Out clicked while the resend waits on `getUser()` gives the call order sign-out, resend, navigation to `/login` |
| Wishlist.Init | src/pages/profile/components/Wishlist.tsx:13-17 | the screen starts with no rows, empty fields, not adding, and loading, so it shows the loading text and the add button is disabled |
| Wishlist.FetchWishlist | src/pages/profile/components/Wishlist.tsx:19-37 | without a user nothing happens; otherwise one select, the rows become the data (or `[]` when none), a thrown error keeps the old rows, and `loading` is cleared |
| Wishlist.AddItem | src/pages/profile/components/Wishlist.tsx:39-64 | an empty company or role means no call and no change; otherwise one insert; success prepends the new row before the old rows in order and clears both fields; failure changes nothing but `adding`, which is false afterwards |
| Wishlist.AddEnabled | src/pages/profile/components/Wishlist.tsx:80-103 | the add button can be clicked only once the rows have loaded, so the loading text is not showing |
| Wishlist.UserId | src/pages/profile/components/Wishlist.tsx:48 | `user?.id`: the signed-in user's id, absent exactly when there is no user |
| Wishlist.StartAdd | src/pages/profile/components/Wishlist.tsx:39-53 | with an empty company or role nothing changes and nothing is called; otherwise `adding` is set and one insert carrying the user's id and both fields is issued |
| Wishlist.SettleAdd | src/pages/profile/components/Wishlist.tsx:55-63 | success puts the returned row in front of the list captured at click time and clears both fields; failure changes only `adding`; `adding` is false afterwards |
| Wishlist.AddDisablesButton | src/pages/profile/components/Wishlist.tsx:44-103 | starting an add disables the add button and settling it, either way, enables it again |
| Wishlist.RemoveItem | src/pages/profile/components/Wishlist.tsx:66-78 | one delete; failure keeps the state; success keeps everything but the rows, which become exactly the old rows whose id differs |
| Wishlist.SettleRemove | src/pages/profile/components/Wishlist.tsx:73-74 | success leaves everything but the rows, which become exactly the rows of the captured list whose id differs; failure changes nothing |
| Wishlist.Render | src/pages/profile/components/Wishlist.tsx:80-131 | loading text iff loading; the empty message iff loaded and empty; otherwise one row per item, in list order |
| Wishlist.RemoveKeepsOrder | src/pages/profile/components/Wishlist.tsx:74 | the rows left after a delete are the old rows at the non-matching positions, in increasing position order |
| Wishlist.AddThenRemove | src/pages/profile/components/Wishlist.tsx:56-74 | deleting a freshly added row whose id is new restores the previous list |
| Wishlist.FetchThenRender | src/pages/profile/components/Wishlist.tsx:31-116 | after a load with a user the screen shows the returned rows, or the empty message when none came back; after a failed load it shows the rows it had |
| Wishlist.AddThenRender | src/pages/profile/components/Wishlist.tsx:56-116 | after a successful add the first row shown is the new one, followed by the previous rows in order |
| Wishlist.RemoveThenRender | src/pages/profile/components/Wishlist.tsx:74-116 | after a successful remove the empty message shows iff every row had the removed id; otherwise the rows shown are exactly the old rows with another id |
| Wishlist.OverlappingRemovesRestoreRow | src/pages/profile/components/Wishlist.tsx:66-74 | two removes started from the same list and both succeeding end with the first-removed row back in the list |
| CoverLetters.Init | src/pages/profile/components/CoverLettersList.tsx:14-15 | the screen starts with no letters and loading, so it shows the loading text |
| CoverLetters.FetchLetters | src/pages/profile/components/CoverLettersList.tsx:17-35 | without a user nothing happens; otherwise one select, the letters become the data (or `[]`), a thrown error keeps the old ones, and `loading` is cleared |
| CoverLetters.HandleDelete | src/pages/profile/components/CoverLettersList.tsx:47-60 | without confirmation nothing happens; otherwise one delete; failure keeps the list; success keeps exactly the letters with another id |
| CoverLetters.SettleDelete | src/pages/profile/components/CoverLettersList.tsx:55-56 | success makes the list exactly the letters of the captured list whose id differs; failure changes nothing; `loading` is untouched |
| CoverLetters.IdPrefix | src/pages/profile/components/CoverLettersList.tsx:41 | the fragment is a prefix of the id of length `min(8, |id|)` |
| CoverLetters.Filename | src/pages/profile/components/CoverLettersList.tsx:41 | the name starts with `cover-letter-`, ends with `.txt`, is 17 to 25 characters long, and exactly 25 for ids of at least 8 characters |
| CoverLetters.HandleDownload | src/pages/profile/components/CoverLettersList.tsx:37-45 | the saved file's content is exactly the letter's text and its name is `Filename` of the letter's id, 17 to 25 characters long |
| CoverLetters.FilenameRoundTrip | src/pages/profile/components/CoverLettersList.tsx:41 | the file name is `cover-letter-` + fragment + `.txt`, where the fragment is the whole id when it has at most 8 characters, else its first 8 |
| CoverLetters.SharedPrefixSameName | src/pages/profile/components/CoverLettersList.tsx:41 | two ids agreeing on their first 8 characters give the same file name |
| CoverLetters.Render | src/pages/profile/components/CoverLettersList.tsx:62-74 | loading text iff loading; the empty message iff loaded and empty; otherwise one row per letter, in list order |
| CoverLetters.DeleteKeepsOrder | src/pages/profile/components/CoverLettersList.tsx:56 | the letters left after a delete are the old letters at the non-matching positions, in increasing position order |
| CoverLetters.DeleteIdempotent | src/pages/profile/components/CoverLettersList.tsx:56 | a second successful delete of the same id changes nothing |
| CoverLetters.FetchThenRender | src/pages/profile/components/CoverLettersList.tsx:29-74 | after a load with a user the screen shows the returned letters, or the empty message when none came back; after a failed load it shows the letters it had |
| CoverLetters.DeleteThenRender | src/pages/profile/components/CoverLettersList.tsx:56-74 | after a confirmed, successful delete the empty message shows iff every letter had that id; otherwise the rows shown are exactly the old letters with another id |
| CoverLetters.OverlappingDeletesRestoreLetter | src/pages/profile/components/CoverLettersList.tsx:47-56 | two deletes confirmed from the same list and both succeeding end with the first-deleted letter back in the list |
| Common.RemoveKey | src/pages/profile/components/Wishlist.tsx:74 | the filtered list holds exactly the records whose id differs, and is no longer than the original |
| Common.RemoveKeyPreservesOrder | src/pages/profile/components/CoverLettersList.tsx:56 | filtering selects exactly the non-matching positions, in strictly increasing order |
| Common.Truthy | src/components/feature/ProtectedRoute.tsx:20 | an optional string is falsy exactly when it is absent or empty |
| Common.MessageOr | src/pages/profile/components/DangerZone.tsx:32 | `err.message || fallback` (also `src/pages/auth/verify-email/page.tsx:24`): the message when it is truthy, else the fallback, and never empty when the fallback is not |

## Left out

- The identity-provider and database SDKs are not modelled. Their results
  arrive as `Result` values.
- Server-side ordering (`order by created_at` / `generated_at`) and the
  database's own checks belong to the server, not the client.
- Timing is not modelled beyond the explicit event order. The verify-email
  page has one settlement event per `await` (`VerifyEmail.Deliver`). The
  delete-account panel has one for the `delete-account` call
  (`DangerZone.Deliver`), with the sign-out folded in as described below.
  The list handlers have start and settle parts, but no event-sequence
  model. The CV card's lookup and its download are each applied to
  completion:
  - the lookup runs once, on mount;
  - a second download cannot start, because the button is disabled while
    one runs;
  - a download cannot overlap the lookup, because the download button is
    rendered only after the lookup has cleared `loading`.
- Browser effects are left out: `window.open`, `alert`, `confirm`,
  Blob/object-URL creation, anchor clicks and `console.error`. Only their
  inputs are kept (URL, alert text, the confirm answer as a boolean, file
  name and content).
- CSS classes, animations, icons and `toLocaleDateString` formatting are
  left out.
- The navigation bar, the profile page layout, the activity feed and the
  analytics summary are presentation only and are not part of this model.
- The spinner shown inside the delete and download buttons while in flight
  is presentation only and is left out.
- ProtectedRoute.HostStep: React StrictMode's extra mount, unmount and
  mount in development, which runs the effect and its cleanup twice, is
  not modelled.
- DangerZone.SettleDelete: the model treats `signOut()` as always
  completing. A sign-out that itself failed would reach the same catch
  block; this is not modelled. The `await` on that sign-out is also folded
  into the settlement of the `delete-account` call, so the sign-out and
  `navigate('/')` are issued in one step and nothing can fall between
  them. This loses no call order: while `loading` is set, the only controls
  that still respond are the confirmation field and the "Terminate Account"
  button behind the overlay, and neither makes a call.
- CoverLetters.IdPrefix: `slice(0, 8)` counts UTF-16 code units. The model
  counts Dafny characters, which agree for ids without surrogate pairs,
  such as UUIDs.
- DangerZone.Act: a click on the "Terminate Account" button while the
  modal is already open is modelled, but the overlay normally prevents it.
- The mount-safety (liveness) flag, fail-closed handling of a rejected
  session fetch and replace-navigation after deletion are left out,
  because the code has none of them.

=== FILE: common.dfy ===
/** Shared vocabulary of the client: optional values, settled remote calls,
    JavaScript truthiness of strings, the `err.message || fallback` idiom,
    substring search (`String.prototype.includes`) and the
    `list.filter(x => x.id !== id)` idiom used by every list screen. */
module Common {

  datatype Option<+T> = None | Some(value: T)

  /** A settled call into the identity provider or the database: either the
      value it delivered, or the error it threw, whose `message` may be
      missing. */
  datatype Result<+T> = Ok(value: T) | Err(message: Option<string>)

  /** The identity provider's user record; only the fields the client reads. */
  datatype User = User(id: string, email: Option<string>, emailConfirmedAt: Option<string>)

  /** The identity provider's session; it always carries its user. */
  datatype Session = Session(accessToken: string, user: User)

  /** JavaScript truthiness of a string that may be `null`/`undefined`:
      both the absent value and the empty string are falsy, and every other
      value is truthy. */
  predicate Truthy(s: Option<string>)
    ensures Truthy(s) <==> s != None && s != Some("")
  {
    s.Some? && s.value != ""
  }

  /** `err.message || fallback`: the thrown error's message when it is
      truthy, otherwise the fixed fallback text. */
  function MessageOr(message: Option<string>, fallback: string): (r: string)
    ensures Truthy(message) ==> r == message.value
    ensures !Truthy(message) ==> r == fallback
    ensures fallback != "" ==> r != ""
  {
    if Truthy(message) then message.value else fallback
  }

  // ---------------------------------------------------------------------
  // Substring search

  /** `m.includes(p)`: `p` occurs in `m` at some position. */
  predicate Contains(m: string, p: string)
  {
    exists i {:trigger m[i..]} :: 0 <= i <= |m| - |p| && m[i..][..|p|] == p
  }

  /** A pattern with a character the text lacks does not occur in it. */
  lemma NotContainsMissingChar(m: string, p: string, j: nat)
    requires j < |p| && p[j] !in m
    ensures !Contains(m, p)
  {
    forall i | 0 <= i <= |m| - |p|
      ensures m[i..][..|p|] != p
    {
      assert m[i..][..|p|][j] == m[i + j];
    }
  }

  /** If character `p[j]` occurs in `m` only at index `k`, the pattern could
      only start at `k - j`; when the text does not hold `p[0]` there, the
      pattern does not occur. */
  lemma NotContainsAtUniqueChar(m: string, p: string, j: nat, k: nat)
    requires j < |p| && j <= k < |m|
    requires forall n :: 0 <= n < |m| && m[n] == p[j] ==> n == k
    requires m[k - j] != p[0]
    ensures !Contains(m, p)
  {
    forall i | 0 <= i <= |m| - |p|
      ensures m[i..][..|p|] != p
    {
      if i + j == k {
        assert m[i..][..|p|][0] == m[k - j];
      } else {
        assert m[i..][..|p|][j] == m[i + j];
      }
    }
  }

  // ---------------------------------------------------------------------
  // Counting entries of a log

  /** How many entries of `xs` satisfy `p`. */
  function Count<T>(xs: seq<T>, p: T -> bool): nat
    decreases |xs|
  {
    if |xs| == 0 then 0
    else Count(xs[..|xs| - 1], p) + (if p(xs[|xs| - 1]) then 1 else 0)
  }

  lemma {:induction false} CountAppend<T>(a: seq<T>, b: seq<T>, p: T -> bool)
    ensures Count(a + b, p) == Count(a, p) + Count(b, p)
    decreases |b|
  {
    if |b| > 0 {
      assert (a + b)[..|a + b| - 1] == a + b[..|b| - 1];
      assert (a + b)[|a + b| - 1] == b[|b| - 1];
      CountAppend(a, b[..|b| - 1], p);
    } else {
      assert a + b == a;
    }
  }

  /** A log with a positive count holds an entry that satisfies `p`. */
  lemma {:induction false} CountPositive<T>(xs: seq<T>, p: T -> bool)
    requires Count(xs, p) > 0
    ensures exists j :: 0 <= j < |xs| && p(xs[j])
    decreases |xs|
  {
    var prefix := xs[..|xs| - 1];
    if !p(xs[|xs| - 1]) {
      CountPositive(prefix, p);
      var j :| 0 <= j < |prefix| && p(prefix[j]);
      assert xs[j] == prefix[j];
    }
  }

  // ---------------------------------------------------------------------
  // Removing records by id

  /** `xs.filter(x => key(x) !== id)`. */
  function RemoveKey<T>(xs: seq<T>, key: T -> string, id: string): (r: seq<T>)
    ensures |r| <= |xs|
    ensures forall x :: x in r ==> x in xs && key(x) != id
    ensures forall x :: x in xs && key(x) != id ==> x in r
    decreases |xs|
  {
    if |xs| == 0 then []
    else if key(xs[0]) != id then [xs[0]] + RemoveKey(xs[1..], key, id)
    else RemoveKey(xs[1..], key, id)
  }

  /** The positions of `xs` whose key differs from `id`, in increasing order. */
  function KeptPositions<T>(xs: seq<T>, key: T -> string, id: string): seq<nat>
    decreases |xs|
  {
    if |xs| == 0 then []
    else
      var rest := KeptPositions(xs[1..], key, id);
      var shifted := seq(|rest|, i requires 0 <= i < |rest| => rest[i] + 1);
      if key(xs[0]) != id then [0] + shifted else shifted
  }

  /** `positions` lists, in strictly increasing order, exactly the indices
      of `xs` whose key differs from `id`, and `r` holds the elements of
      `xs` at those indices: `r` is `xs` with the matching records deleted
      and the relative order of the others preserved. */
  ghost predicate OrderedSelection<T>(r: seq<T>, xs: seq<T>, positions: seq<nat>, key: T -> string, id: string)
  {
    && |positions| == |r|
    && (forall i :: 0 <= i < |positions| ==> positions[i] < |xs| && r[i] == xs[positions[i]])
    && (forall i, j :: 0 <= i < j < |positions| ==> positions[i] < positions[j])
    && (forall k :: 0 <= k < |xs| && key(xs[k]) != id ==> k in positions)
  }

  /** Filtering keeps exactly the non-matching records, in their original order. */
  lemma {:induction false} RemoveKeyPreservesOrder<T>(xs: seq<T>, key: T -> string, id: string)
    ensures OrderedSelection(RemoveKey(xs, key, id), xs, KeptPositions(xs, key, id), key, id)
    decreases |xs|
  {
    if |xs| > 0 {
      var tail := xs[1..];
      RemoveKeyPreservesOrder(tail, key, id);
      var rest := KeptPositions(tail, key, id);
      var shifted := seq(|rest|, i requires 0 <= i < |rest| => rest[i] + 1);
      var tailR := RemoveKey(tail, key, id);
      ShiftedSelection(xs, tailR, rest, shifted, key, id);
      if key(xs[0]) != id {
        ConsSelection(xs, tailR, shifted, key, id);
      }
    }
  }

  /** Induction step, dropped head: positions in the tail, shifted by one,
      select the same records from the whole list. */
  lemma ShiftedSelection<T>(xs: seq<T>, tailR: seq<T>, rest: seq<nat>, shifted: seq<nat>, key: T -> string, id: string)
    requires |xs| > 0
    requires OrderedSelection(tailR, xs[1..], rest, key, id)
    requires shifted == seq(|rest|, i requires 0 <= i < |rest| => rest[i] + 1)
    ensures |shifted| == |tailR|
    ensures forall i :: 0 <= i < |shifted| ==> 0 < shifted[i] < |xs| && tailR[i] == xs[shifted[i]]
    ensures forall i, j :: 0 <= i < j < |shifted| ==> shifted[i] < shifted[j]
    ensures forall k :: 0 < k < |xs| && key(xs[k]) != id ==> k in shifted
  {
    forall k | 0 < k < |xs| && key(xs[k]) != id
      ensures k in shifted
    {
      assert xs[1..][k - 1] == xs[k];
      var n :| 0 <= n < |rest| && rest[n] == k - 1;
      assert shifted[n] == k;
    }
  }

  /** Induction step, kept head: position 0 followed by the shifted tail
      positions selects the head followed by the filtered tail. */
  lemma ConsSelection<T>(xs: seq<T>, tailR: seq<T>, shifted: seq<nat>, key: T -> string, id: string)
    requires |xs| > 0
    requires |shifted| == |tailR|
    requires forall i :: 0 <= i < |shifted| ==> 0 < shifted[i] < |xs| && tailR[i] == xs[shifted[i]]
    requires forall i, j :: 0 <= i < j < |shifted| ==> shifted[i] < shifted[j]
    requires forall k :: 0 < k < |xs| && key(xs[k]) != id ==> k in shifted
    ensures OrderedSelection([xs[0]] + tailR, xs, [0] + shifted, key, id)
  {
    var ps := [0] + shifted;
    var r := [xs[0]] + tailR;
    forall i | 0 <= i < |ps|
      ensures ps[i] < |xs| && r[i] == xs[ps[i]]
    {
      if i > 0 {
        assert ps[i] == shifted[i - 1] && r[i] == tailR[i - 1];
      }
    }
    forall i, j | 0 <= i < j < |ps|
      ensures ps[i] < ps[j]
    {
      assert ps[j] == shifted[j - 1];
      if i > 0 {
        assert ps[i] == shifted[i - 1];
      }
    }
    forall k | 0 <= k < |xs| && key(xs[k]) != id
      ensures k in ps
    {
      if k > 0 {
        var n :| 0 <= n < |shifted| && shifted[n] == k;
        assert ps[n + 1] == k;
      }
    }
  }

  /** Deleting an id no record carries changes nothing. */
  lemma {:induction false} RemoveAbsentKey<T>(xs: seq<T>, key: T -> string, id: string)
    requires forall i :: 0 <= i < |xs| ==> key(xs[i]) != id
    ensures RemoveKey(xs, key, id) == xs
    decreases |xs|
  {
    if |xs| > 0 {
      RemoveAbsentKey(xs[1..], key, id);
    }
  }

  /** Deleting the same id twice is the same as deleting it once. */
  lemma RemoveKeyIdempotent<T>(xs: seq<T>, key: T -> string, id: string)
    ensures RemoveKey(RemoveKey(xs, key, id), key, id) == RemoveKey(xs, key, id)
  {
    var r := RemoveKey(xs, key, id);
    forall i | 0 <= i < |r|
      ensures key(r[i]) != id
    {
      assert r[i] in r;
    }
    RemoveAbsentKey(r, key, id);
  }

  /** Deleting the id of a freshly prepended record, when no older record
      carries that id, restores the list as it was before the insert. */
  lemma PrependThenRemove<T>(x: T, xs: seq<T>, key: T -> string)
    requires forall i :: 0 <= i < |xs| ==> key(xs[i]) != key(x)
    ensures RemoveKey([x] + xs, key, key(x)) == xs
  {
    assert ([x] + xs)[1..] == xs;
    RemoveAbsentKey(xs, key, key(x));
  }
}

=== FILE: cover_letters.dfy ===
/** The profile's list of generated cover letters: load them, download one
    as a text file, and delete one after the user confirms. */
module CoverLetters {
  import opened Common

  const FilePrefix := "cover-letter-"
  const FileSuffix := ".txt"
  const IdChars := 8

  datatype CoverLetter = CoverLetter(id: string, applicationId: string, content: string, generatedAt: string)

  datatype ListState = ListState(letters: seq<CoverLetter>, loading: bool)

  /** Calls on the `cover_letters` table, and the file handed to the browser. */
  datatype Effect =
    | SelectLetters
    | DeleteLetter(id: string)
    | SaveFile(filename: string, content: string)

  /** What the screen shows. */
  datatype View = LoadingText | EmptyMessage | Rows(rows: seq<CoverLetter>)

  function LetterId(letter: CoverLetter): string
  {
    letter.id
  }

  function Init(): (r: ListState)
    ensures r.letters == [] && r.loading
    ensures Render(r) == LoadingText
  {
    ListState([], true)
  }

  /** The effect hook and `fetchLetters`: nothing without a signed-in user;
      otherwise the letters are loaded (`data || []`), a thrown error keeps
      the old ones, and `loading` is cleared on every path. */
  function FetchLetters(s: ListState, user: Option<User>, result: Result<Option<seq<CoverLetter>>>): (r: (ListState, seq<Effect>))
    ensures user.None? ==> r == (s, [])
    ensures user.Some? ==> r.1 == [SelectLetters] && !r.0.loading
    ensures user.Some? ==> r.0.letters == (if result.Err? then s.letters else if result.value.Some? then result.value.value else [])
  {
    if user.None? then (s, [])
    else
      var letters := match result
        case Ok(Some(rows)) => rows
        case Ok(None) => []
        case Err(_) => s.letters;
      (ListState(letters, false), [SelectLetters])
  }

  /** The part of `handleDelete` after the delete settles. On success the
      list becomes `captured`, the list the click's closure saw, without
      every letter carrying that id, the others in order; on error nothing
      changes. */
  function SettleDelete(s: ListState, captured: seq<CoverLetter>, id: string, result: Result<()>): (r: ListState)
    ensures r.loading == s.loading
    ensures result.Err? ==> r == s
    ensures result.Ok? ==> forall x :: x in r.letters <==> x in captured && x.id != id
  {
    match result
    case Ok(_) => s.(letters := RemoveKey(captured, LetterId, id))
    case Err(_) => s
  }

  /** `handleDelete` with nothing else happening while the delete is out:
      without the user's confirmation nothing happens; otherwise one delete,
      after which a success drops every letter with that id and an error
      keeps the list. */
  function HandleDelete(s: ListState, id: string, confirmed: bool, result: Result<()>): (r: (ListState, seq<Effect>))
    ensures !confirmed ==> r == (s, [])
    ensures confirmed ==> r.1 == [DeleteLetter(id)] && r.0.loading == s.loading
    ensures confirmed && result.Err? ==> r.0 == s
    ensures confirmed && result.Ok? ==> forall x :: x in r.0.letters <==> x in s.letters && x.id != id
  {
    if !confirmed then (s, [])
    else (SettleDelete(s, s.letters, id, result), [DeleteLetter(id)])
  }

  /** `id.slice(0, 8)`: at most the first eight characters. */
  function IdPrefix(id: string): (p: string)
    ensures |p| == (if |id| < IdChars then |id| else IdChars)
    ensures p <= id
  {
    if |id| < IdChars then id else id[..IdChars]
  }

  /** The name of the downloaded file: the fixed prefix, at most eight
      characters of the id, and the `.txt` suffix. */
  function Filename(id: string): (f: string)
    ensures |FilePrefix| + |FileSuffix| <= |f| <= |FilePrefix| + IdChars + |FileSuffix|
    ensures |id| >= IdChars ==> |f| == |FilePrefix| + IdChars + |FileSuffix|
    ensures f[..|FilePrefix|] == FilePrefix
    ensures f[|f| - |FileSuffix|..] == FileSuffix
  {
    FilePrefix + IdPrefix(id) + FileSuffix
  }

  /** `handleDownload`: one file holding exactly the letter's text, named
      after the letter's id. */
  function HandleDownload(letter: CoverLetter): (e: Effect)
    ensures e.SaveFile? && e.content == letter.content
    ensures e.filename == Filename(letter.id)
    ensures |FilePrefix| + |FileSuffix| <= |e.filename| <= |FilePrefix| + IdChars + |FileSuffix|
  {
    SaveFile(Filename(letter.id), letter.content)
  }

  /** The id fragment between the fixed prefix and suffix of a file name. */
  function IdFragment(filename: string): string
    requires |filename| >= |FilePrefix| + |FileSuffix|
  {
    filename[|FilePrefix|..|filename| - |FileSuffix|]
  }

  /** The file name has the fixed prefix and suffix, and what lies between
      them is the start of the letter's id: all of it for short ids, its
      first eight characters otherwise. */
  lemma FilenameRoundTrip(id: string)
    ensures var f := Filename(id);
      && f[..|FilePrefix|] == FilePrefix
      && f[|f| - |FileSuffix|..] == FileSuffix
      && IdFragment(f) <= id
      && (|id| <= IdChars ==> IdFragment(f) == id)
      && (|id| > IdChars ==> |IdFragment(f)| == IdChars)
  {
    var f := Filename(id);
    assert f == FilePrefix + IdPrefix(id) + FileSuffix;
    assert IdFragment(f) == IdPrefix(id);
  }

  /** Two letters whose ids agree on the first eight characters get the
      same file name. */
  lemma SharedPrefixSameName(a: string, b: string)
    requires |a| >= IdChars && |b| >= IdChars && a[..IdChars] == b[..IdChars]
    ensures Filename(a) == Filename(b)
  {
  }

  /** The render choice: one row per letter, in list order. */
  function Render(s: ListState): (v: View)
    ensures v == LoadingText <==> s.loading
    ensures v == EmptyMessage <==> !s.loading && s.letters == []
    ensures v.Rows? ==> v.rows == s.letters && |v.rows| > 0
  {
    if s.loading then LoadingText
    else if |s.letters| == 0 then EmptyMessage
    else Rows(s.letters)
  }

  /** A confirmed, successful delete keeps the other letters in their
      original order. */
  lemma DeleteKeepsOrder(s: ListState, id: string)
    ensures var r := HandleDelete(s, id, true, Ok(())).0.letters;
      OrderedSelection(r, s.letters, KeptPositions(s.letters, LetterId, id), LetterId, id)
  {
    RemoveKeyPreservesOrder(s.letters, LetterId, id);
  }

  /** Deleting twice with the same id removes nothing more the second time. */
  lemma DeleteIdempotent(s: ListState, id: string)
    ensures var once := HandleDelete(s, id, true, Ok(())).0;
      HandleDelete(once, id, true, Ok(())).0 == once
  {
    RemoveKeyIdempotent(s.letters, LetterId, id);
  }

  /** After a load with a signed-in user the screen shows the returned
      letters, or the empty message when none came back; after a failed
      load it shows the letters it had. */
  lemma FetchThenRender(s: ListState, u: User, result: Result<Option<seq<CoverLetter>>>)
    ensures Render(FetchLetters(s, Some(u), result).0) ==
      if result.Ok? then
        (if result.value.None? || result.value.value == [] then EmptyMessage else Rows(result.value.value))
      else (if s.letters == [] then EmptyMessage else Rows(s.letters))
  {
  }

  /** After a confirmed, successful delete the empty message appears exactly
      when every letter carried the deleted id; otherwise the rows shown are
      exactly the old letters with another id. */
  lemma DeleteThenRender(s: ListState, id: string)
    requires !s.loading
    ensures var v := Render(HandleDelete(s, id, true, Ok(())).0);
      && (v == EmptyMessage <==> forall i :: 0 <= i < |s.letters| ==> s.letters[i].id == id)
      && (v.Rows? ==> forall x :: x in v.rows <==> x in s.letters && x.id != id)
  {
    var r := HandleDelete(s, id, true, Ok(())).0.letters;
    if r != [] {
      assert r[0] in r;
    }
    forall i | 0 <= i < |s.letters| && s.letters[i].id != id
      ensures r != []
    {
      assert s.letters[i] in s.letters;
    }
  }

  /** Two deletes confirmed from the same rendered list, both succeeding:
      each filters the list its own click captured, so the second one to
      settle brings back the letter the first one removed. */
  lemma OverlappingDeletesRestoreLetter(s: ListState, a: string, b: string, letter: CoverLetter)
    requires letter in s.letters && letter.id == a && a != b
    ensures var first := SettleDelete(s, s.letters, a, Ok(()));
      && letter !in first.letters
      && letter in SettleDelete(first, s.letters, b, Ok(())).letters
  {
  }
}

=== FILE: cv_widget.dfy ===
/** The dashboard's CV card: a lookup of the user's CV record, a three-way
    render choice, and a download that trades the session's access token
    for a signed link. */
module CvWidget {
  import opened Common

  const BearerPrefix := "Bearer "
  const DownloadFailedAlert := "Failed to download CV"

  /** The CV record shown on the card. */
  datatype CvRecord = CvRecord(id: string, originalFilename: string, uploadedAt: string)

  datatype WidgetState = WidgetState(cv: Option<CvRecord>, loading: bool, downloading: bool)

  /** How the record lookup ended. */
  datatype LookupOutcome =
    | NoUser                        // `getUser()` returned no user: early return
    | LookupThrew                   // something on the way threw
    | Queried(data: Option<CvRecord>) // `maybeSingle()` answered; its `error` is not inspected

  /** Calls and browser effects of a download, in order. */
  datatype Effect =
    | InvokeDownloadCv(authorization: string)  // `functions.invoke('download-cv', { headers: { Authorization } })`
    | OpenWindow(url: string)                  // `window.open(signedUrl, '_blank')`
    | Alert(text: string)

  /** What the card shows. */
  datatype View = Spinner | Details(record: CvRecord) | EmptyState

  function Init(): (r: WidgetState)
    ensures r.cv.None? && r.loading && !r.downloading
    ensures Render(r) == Spinner && !DownloadEnabled(r)
  {
    WidgetState(None, true, false)
  }

  /** `fetchCV`: `loading` is cleared on every path, and the record is
      replaced only when the query returned one. */
  function FetchCv(s: WidgetState, outcome: LookupOutcome): (r: WidgetState)
    ensures !r.loading && r.downloading == s.downloading
    ensures r.cv == (if outcome.Queried? && outcome.data.Some? then outcome.data else s.cv)
  {
    match outcome
    case Queried(Some(record)) => s.(cv := Some(record), loading := false)
    case _ => s.(loading := false)
  }

  /** The render choice. */
  function Render(s: WidgetState): (v: View)
    ensures v == Spinner <==> s.loading
    ensures v.Details? <==> !s.loading && s.cv.Some?
    ensures v.Details? ==> v.record == s.cv.value
  {
    if s.loading then Spinner
    else if s.cv.Some? then Details(s.cv.value)
    else EmptyState
  }

  /** After the first lookup the card shows the record exactly when the
      query returned one, and the empty state otherwise; it never spins. */
  lemma FirstLookupShows(outcome: LookupOutcome)
    ensures Render(FetchCv(Init(), outcome)) ==
      (if outcome.Queried? && outcome.data.Some? then Details(outcome.data.value) else EmptyState)
  {
  }

  /** The `Authorization` header built from an access token. */
  function AuthorizationHeader(token: string): (h: string)
    ensures |h| == |BearerPrefix| + |token|
    ensures h[..|BearerPrefix|] == BearerPrefix
    ensures h[|BearerPrefix|..] == token
  {
    BearerPrefix + token
  }

  /** The token carried by a bearer header. */
  function TokenOf(header: string): string
    requires |header| >= |BearerPrefix|
  {
    header[|BearerPrefix|..]
  }

  /** The token can be read back from the header it was put in, so the
      header carries exactly the session's token. */
  lemma HeaderRoundTrip(token: string)
    ensures TokenOf(AuthorizationHeader(token)) == token
  {
  }

  /** Distinct tokens give distinct headers. */
  lemma HeaderInjective(t1: string, t2: string)
    requires AuthorizationHeader(t1) == AuthorizationHeader(t2)
    ensures t1 == t2
  {
    HeaderRoundTrip(t1);
    HeaderRoundTrip(t2);
  }

  /** The download button exists only beside the record's details and is
      disabled while a download runs: it can be clicked only on a loaded
      card that holds a record. */
  predicate DownloadEnabled(s: WidgetState)
    ensures DownloadEnabled(s) ==> !s.loading && s.cv.Some? && !s.downloading
    ensures !s.loading && s.cv.Some? && !s.downloading ==> DownloadEnabled(s)
  {
    Render(s).Details? && !s.downloading
  }

  /** The entry of `handleDownload`: `downloading` is set first. */
  function StartDownload(s: WidgetState): (r: WidgetState)
    ensures r.downloading
    ensures r.cv == s.cv && r.loading == s.loading
  {
    s.(downloading := true)
  }

  /** The rest of `handleDownload`, given how `getSession()` settled and,
      when there was a session, how the function call settled. The
      `finally` clears `downloading` on every path. */
  function FinishDownload(s: WidgetState, session: Result<Option<Session>>, response: Result<Option<string>>): (r: (WidgetState, seq<Effect>))
    ensures !r.0.downloading && r.0.cv == s.cv && r.0.loading == s.loading
    ensures (session.Err? || session.value.None?) ==> r.1 == (if session.Err? then [Alert(DownloadFailedAlert)] else [])
    ensures session.Ok? && session.value.Some? ==>
      && |r.1| >= 1
      && r.1[0] == InvokeDownloadCv(BearerPrefix + session.value.value.accessToken)
      && r.1[1..] == (if response.Err? then [Alert(DownloadFailedAlert)]
                      else if Truthy(response.value) then [OpenWindow(response.value.value)]
                      else [])
  {
    var done := s.(downloading := false);
    match session
    case Err(_) => (done, [Alert(DownloadFailedAlert)])
    case Ok(None) => (done, [])
    case Ok(Some(sess)) =>
      var call := InvokeDownloadCv(AuthorizationHeader(sess.accessToken));
      match response
      case Err(_) => (done, [call, Alert(DownloadFailedAlert)])
      case Ok(url) => (done, [call] + (if Truthy(url) then [OpenWindow(url.value)] else []))
  }

  /** Without a session the download function is never invoked, and a link
      is opened only from a successful response carrying a signed URL. */
  lemma DownloadNeedsSession(s: WidgetState, session: Result<Option<Session>>, response: Result<Option<string>>)
    ensures var effects := FinishDownload(s, session, response).1;
      && ((exists i :: 0 <= i < |effects| && effects[i].InvokeDownloadCv?) <==> session.Ok? && session.value.Some?)
      && ((exists i :: 0 <= i < |effects| && effects[i].OpenWindow?) <==>
           session.Ok? && session.value.Some? && response.Ok? && Truthy(response.value))
  {
    var effects := FinishDownload(s, session, response).1;
    if session.Ok? && session.value.Some? {
      assert effects[0].InvokeDownloadCv?;
      if response.Ok? && Truthy(response.value) {
        assert effects[1].OpenWindow?;
      }
    }
  }

  /** A download started from the enabled button disables the button until
      it finishes, and then leaves the card exactly as it was, whatever
      happened. */
  lemma DownloadFlagRestored(s: WidgetState, session: Result<Option<Session>>, response: Result<Option<string>>)
    requires DownloadEnabled(s)
    ensures !DownloadEnabled(StartDownload(s))
    ensures FinishDownload(StartDownload(s), session, response).0 == s
  {
  }
}

=== FILE: danger_zone.dfy ===
/** The account-termination panel: a modal whose submit control is enabled
    only by the exact confirmation phrase, one remote `delete-account` call,
    and sign-out followed by navigation home on success. */
module DangerZone {
  import opened Common

  const ConfirmationPhrase := "DELETE MY ACCOUNT"
  const DeleteFailedText := "Failed to delete account"
  const HomePath := "/"

  /** The component's state: modal visibility, the text typed into the
      confirmation field, the in-flight flag and the shown error. */
  datatype PanelState = PanelState(showModal: bool, confirmInput: string, loading: bool, error: Option<string>)

  /** Calls the panel makes, in the order it makes them. */
  datatype Effect =
    | InvokeDeleteAccount(confirmation: string)   // `functions.invoke('delete-account', { body: { confirmation } })`
    | SignOut
    | Navigate(to: string, replace: bool)

  /** What the user does, and the settling of the remote call. */
  datatype PanelEvent =
    | OpenModal                      // "Terminate Account"
    | TypeConfirmation(text: string) // the input's `onChange`
    | ClickCancel
    | ClickSubmit
    | DeleteSettled(outcome: Result<()>)

  function Init(): (r: PanelState)
    ensures !r.showModal && r.confirmInput == "" && !r.loading && r.error.None?
    ensures !SubmitEnabled(r) && !CancelEnabled(r)
  {
    PanelState(false, "", false, None)
  }

  /** The submit control can be clicked: it is rendered only inside the
      open modal, and it is disabled unless the typed text is the phrase,
      character for character, and no call is in flight. An enabled control
      always gets past the handler's own phrase check. */
  predicate SubmitEnabled(s: PanelState)
    ensures SubmitEnabled(s) ==> HandleDeleteAccount(s).1 == [InvokeDeleteAccount(ConfirmationPhrase)]
  {
    s.showModal && s.confirmInput == ConfirmationPhrase && !s.loading
  }

  /** The cancel control can be clicked: it is rendered only inside the open
      modal and is disabled while a call is in flight. Whenever submit can
      be clicked, so can cancel. */
  predicate CancelEnabled(s: PanelState)
    ensures SubmitEnabled(s) ==> CancelEnabled(s)
  {
    s.showModal && !s.loading
  }

  /** The synchronous part of `handleDeleteAccount`, up to the remote call:
      with any other text it returns at once; otherwise it sets the flags and
      issues the one call, carrying the typed text. */
  function HandleDeleteAccount(s: PanelState): (r: (PanelState, seq<Effect>))
    ensures s.confirmInput != ConfirmationPhrase ==> r.0 == s && r.1 == []
    ensures s.confirmInput == ConfirmationPhrase ==>
      && r.1 == [InvokeDeleteAccount(ConfirmationPhrase)]
      && r.0.loading && r.0.error.None?
      && r.0.showModal == s.showModal && r.0.confirmInput == s.confirmInput
  {
    if s.confirmInput != ConfirmationPhrase then (s, [])
    else (s.(loading := true, error := None), [InvokeDeleteAccount(s.confirmInput)])
  }

  /** The continuation of `handleDeleteAccount` once the call settles.
      Success signs out, then navigates home (without replacing history),
      and leaves the state alone; failure shows the error's message (or the
      fixed text), clears `loading` and touches nothing else. */
  function SettleDelete(s: PanelState, outcome: Result<()>): (r: (PanelState, seq<Effect>))
    ensures outcome.Ok? ==> r.0 == s && r.1 == [SignOut, Navigate(HomePath, false)]
    ensures outcome.Err? ==>
      && r.1 == []
      && !r.0.loading
      && r.0.error == Some(if Truthy(outcome.message) then outcome.message.value else DeleteFailedText)
      && r.0.showModal == s.showModal && r.0.confirmInput == s.confirmInput
  {
    match outcome
    case Ok(_) => (s, [SignOut, Navigate(HomePath, false)])
    case Err(message) => (s.(error := Some(MessageOr(message, DeleteFailedText)), loading := false), [])
  }

  /** One user action. The confirmation field and the two modal buttons
      exist only while the modal is shown, and a disabled control does not
      fire, so a click on either changes nothing. */
  function Act(s: PanelState, e: PanelEvent): (r: (PanelState, seq<Effect>))
    requires !e.DeleteSettled?
    ensures e.OpenModal? ==> r.1 == [] && r.0 == s.(showModal := true)
    ensures !e.OpenModal? && !s.showModal ==> r == (s, [])
    ensures e.ClickSubmit? ==> (r.1 != [] <==> SubmitEnabled(s))
    ensures e.ClickSubmit? && r.1 != [] ==> r.0.showModal
    ensures e.ClickCancel? ==> r.1 == [] && r.0 == (if CancelEnabled(s) then s.(showModal := false) else s)
    ensures e.TypeConfirmation? && s.showModal ==> r.1 == [] && r.0 == s.(confirmInput := e.text)
  {
    match e
    case OpenModal => (s.(showModal := true), [])
    case TypeConfirmation(text) => (if s.showModal then s.(confirmInput := text) else s, [])
    case ClickCancel => (if CancelEnabled(s) then s.(showModal := false) else s, [])
    case ClickSubmit => if SubmitEnabled(s) then HandleDeleteAccount(s) else (s, [])
  }

  /** Typing the phrase in lower case, as the upper-case styling of the
      field suggests one might, leaves submit disabled. */
  lemma LowerCaseStaysDisabled(s: PanelState)
    ensures !SubmitEnabled(Act(s, TypeConfirmation("delete my account")).0)
  {
    assert "delete my account"[0] != ConfirmationPhrase[0];
  }

  /** A cancel while idle hides the modal and keeps the typed text and the
      error; while a call is in flight it does nothing. */
  lemma CancelKeepsInput(s: PanelState)
    ensures var r := Act(s, ClickCancel).0;
      && r.confirmInput == s.confirmInput && r.error == s.error && r.loading == s.loading
      && (r.showModal <==> s.showModal && s.loading)
  {
  }

  // ---------------------------------------------------------------------
  // The panel together with the remote call it waits on

  /** The panel, whether its call is still outstanding, and whether the
      account has been deleted. */
  datatype Controller = Controller(panel: PanelState, inFlight: bool, deleted: bool)

  /** Delivers one event. A settlement arrives only for an outstanding call;
      it ends that call, and a successful one marks the account deleted. A
      user action starts a call exactly when it issues one. */
  function Deliver(m: Controller, e: PanelEvent): (r: (Controller, seq<Effect>))
    ensures e.DeleteSettled? && !m.inFlight ==> r == (m, [])
    ensures e.DeleteSettled? && m.inFlight ==>
      !r.0.inFlight && (r.0.deleted <==> m.deleted || e.outcome.Ok?)
    ensures !e.DeleteSettled? ==>
      r.0.deleted == m.deleted && (r.0.inFlight <==> m.inFlight || r.1 != [])
  {
    match e
    case DeleteSettled(outcome) =>
      if !m.inFlight then (m, [])
      else
        var (p, effects) := SettleDelete(m.panel, outcome);
        (Controller(p, false, m.deleted || outcome.Ok?), effects)
    case _ =>
      var (p, effects) := Act(m.panel, e);
      (Controller(p, m.inFlight || effects != [], m.deleted), effects)
  }

  function Replay(events: seq<PanelEvent>): (Controller, seq<Effect>)
    decreases |events|
  {
    if |events| == 0 then (Controller(Init(), false, false), [])
    else
      var (m, log) := Replay(events[..|events| - 1]);
      var (m', effects) := Deliver(m, events[|events| - 1]);
      (m', log + effects)
  }

  predicate IsInvoke(e: Effect) { e.InvokeDeleteAccount? }
  predicate IsSignOut(e: Effect) { e.SignOut? }
  predicate IsNavigate(e: Effect) { e.Navigate? }

  function Failures(events: seq<PanelEvent>): nat
    decreases |events|
  {
    if |events| == 0 then 0
    else
      var (m, _) := Replay(events[..|events| - 1]);
      var last := events[|events| - 1];
      Failures(events[..|events| - 1]) + (if FailsCall(m, last) then 1 else 0)
  }

  /** The shape of any effect log: only the exact phrase is ever sent, and
      sign-out is always immediately followed by the navigation home. */
  ghost predicate LogShape(log: seq<Effect>)
  {
    && (forall i :: 0 <= i < |log| && log[i].InvokeDeleteAccount? ==> log[i].confirmation == ConfirmationPhrase)
    && (forall i :: 0 <= i < |log| && log[i].Navigate? ==> 0 < i && log[i - 1] == SignOut && log[i] == Navigate(HomePath, false))
    && (forall i :: 0 <= i < |log| && log[i] == SignOut ==> i + 1 < |log| && log[i + 1].Navigate?)
  }

  /** What one delivery can emit. */
  predicate Chunk(effects: seq<Effect>)
  {
    || effects == []
    || effects == [InvokeDeleteAccount(ConfirmationPhrase)]
    || effects == [SignOut, Navigate(HomePath, false)]
  }

  lemma LogShapeAppend(log: seq<Effect>, effects: seq<Effect>)
    requires LogShape(log) && Chunk(effects)
    ensures LogShape(log + effects)
  {
    var full := log + effects;
    forall i | 0 <= i < |full| && full[i].Navigate?
      ensures 0 < i && full[i - 1] == SignOut && full[i] == Navigate(HomePath, false)
    {
      if i >= |log| {
        assert effects == [SignOut, Navigate(HomePath, false)];
      }
    }
  }

  /** The controller's invariant after a log with `failures` failed calls:
      a call in flight or a completed deletion keeps the panel loading with
      the modal shown (cancel is disabled meanwhile), every
      issued call is accounted for by a failure, the call in flight or the
      deletion, and sign-out (paired with navigation) happened exactly when
      the deletion succeeded. */
  ghost predicate Invariant(m: Controller, log: seq<Effect>, failures: nat)
  {
    && (m.inFlight ==> m.panel.loading && m.panel.showModal)
    && (m.deleted ==> m.panel.loading && m.panel.showModal && !m.inFlight)
    && Count(log, IsInvoke) == failures + (if m.inFlight || m.deleted then 1 else 0)
    && Count(log, IsSignOut) == (if m.deleted then 1 else 0)
    && Count(log, IsNavigate) == Count(log, IsSignOut)
    && LogShape(log)
  }

  /** Whether delivering `e` to `m` settles an outstanding call with a failure. */
  predicate FailsCall(m: Controller, e: PanelEvent)
  {
    m.inFlight && e.DeleteSettled? && e.outcome.Err?
  }

  lemma DeliverPreserves(m: Controller, log: seq<Effect>, failures: nat, e: PanelEvent)
    requires Invariant(m, log, failures)
    ensures var (m', effects) := Deliver(m, e);
      Invariant(m', log + effects, failures + (if FailsCall(m, e) then 1 else 0))
  {
    var (m', effects) := Deliver(m, e);
    assert Chunk(effects);
    LogShapeAppend(log, effects);
    CountAppend(log, effects, IsInvoke);
    CountAppend(log, effects, IsSignOut);
    CountAppend(log, effects, IsNavigate);
    assert [SignOut, Navigate(HomePath, false)][..1] == [SignOut];
    assert [InvokeDeleteAccount(ConfirmationPhrase)][..0] == [];
    assert [SignOut][..0] == [];
  }

  /** Every effect log the panel produces, over any sequence of events,
      satisfies the controller's invariant. */
  lemma {:induction false} ReplayInvariant(events: seq<PanelEvent>)
    ensures Invariant(Replay(events).0, Replay(events).1, Failures(events))
    decreases |events|
  {
    if |events| > 0 {
      var prefix := events[..|events| - 1];
      ReplayInvariant(prefix);
      var (m, log) := Replay(prefix);
      DeliverPreserves(m, log, Failures(prefix), events[|events| - 1]);
    }
  }

  /** The panel never has two deletion calls outstanding: the number of
      calls issued is at most one more than the number that failed. */
  lemma NoReentrantDelete(events: seq<PanelEvent>)
    ensures Count(Replay(events).1, IsInvoke) <= Failures(events) + 1
  {
    ReplayInvariant(events);
  }

  /** A click on submit while a call is in flight issues nothing. */
  lemma InFlightBlocksSubmit(events: seq<PanelEvent>)
    requires Replay(events).0.inFlight
    ensures Deliver(Replay(events).0, ClickSubmit).1 == []
  {
    ReplayInvariant(events);
  }

  /** While a call is outstanding the modal stays on screen: it cannot be
      cancelled until the call settles. */
  lemma ModalShownWhileInFlight(events: seq<PanelEvent>)
    ensures Replay(events).0.inFlight ==> Replay(events).0.panel.showModal
  {
    ReplayInvariant(events);
  }

  /** Scenario: the phrase is typed, the modal is cancelled, and the hidden
      submit control cannot be reached; reopening the modal shows the kept
      text and submit then issues the call. */
  lemma HiddenSubmitIssuesNothing()
    ensures var s0 := Act(Act(Init(), OpenModal).0, TypeConfirmation(ConfirmationPhrase)).0;
      && var s1 := Act(s0, ClickCancel).0;
      && !s1.showModal && Act(s1, ClickSubmit) == (s1, [])
      && Act(Act(s1, OpenModal).0, ClickSubmit).1 == [InvokeDeleteAccount(ConfirmationPhrase)]
  {
  }

  /** Scenario: the exact phrase enables submit; a failure showing
      "quota exceeded" keeps the modal and the text and signs nothing out. */
  lemma QuotaExceededScenario()
    ensures var s0 := Act(Act(Init(), OpenModal).0, TypeConfirmation(ConfirmationPhrase)).0;
      && SubmitEnabled(s0)
      && var (s1, call) := Act(s0, ClickSubmit);
      && call == [InvokeDeleteAccount("DELETE MY ACCOUNT")]
      && var (s2, after) := SettleDelete(s1, Err(Some("quota exceeded")));
      && after == [] && s2.error == Some("quota exceeded") && s2.showModal
      && s2.confirmInput == ConfirmationPhrase && SubmitEnabled(s2)
  {
  }
}

=== FILE: protected_route.dfy ===
/** The route gate wrapped around every protected page: three flags fed by
    a one-shot session fetch and by auth-change notifications, and a pure
    decision turning the flags into a spinner, a redirect or the page. */
module ProtectedRoute {
  import opened Common

  const LoginPath := "/login"
  const VerifyEmailPath := "/verify-email"

  /** The component's three pieces of state. */
  datatype GateState = GateState(loading: bool, authenticated: bool, emailConfirmed: bool)

  /** What reaches the gate from the identity provider, one at a time. */
  datatype AuthEvent =
    | SessionFetched(fetched: Option<Session>)     // `getSession()` resolved
    | SessionFetchRejected                          // `getSession()` rejected: `checkAuth` throws before any setter runs
    | AuthStateChanged(changed: Option<Session>)   // the `onAuthStateChange` callback fired

  /** What the gate renders. */
  datatype View = Spinner | Redirect(to: string, replace: bool) | Children

  /** `!!user?.email_confirmed_at`: a session whose user has a non-empty
      confirmation timestamp. */
  predicate EmailConfirmed(session: Option<Session>)
  {
    session.Some? && Truthy(session.value.user.emailConfirmedAt)
  }

  /** The flags after applying a session, as both update paths do. */
  function Observe(s: GateState, session: Option<Session>): (r: GateState)
    ensures r.loading == s.loading
    ensures r.authenticated <==> session.Some?
    ensures r.emailConfirmed <==> session.Some? && Truthy(session.value.user.emailConfirmedAt)
  {
    s.(authenticated := session.Some?, emailConfirmed := EmailConfirmed(session))
  }

  /** The state on mount: loading, neither flag set. */
  function Init(): (r: GateState)
    ensures r.loading && !r.authenticated && !r.emailConfirmed
  {
    GateState(true, false, false)
  }

  /** A confirmed e-mail implies a session. */
  predicate Consistent(s: GateState)
  {
    s.emailConfirmed ==> s.authenticated
  }

  /** Applies one event. Only a resolved fetch clears `loading`; a rejected
      fetch changes nothing at all. */
  function Step(s: GateState, e: AuthEvent): (r: GateState)
    ensures e.SessionFetched? ==> !r.loading
    ensures !e.SessionFetched? ==> r.loading == s.loading
    ensures e.SessionFetchRejected? ==> r == s
    ensures Consistent(s) ==> Consistent(r)
  {
    match e
    case SessionFetched(session) => Observe(s, session).(loading := false)
    case SessionFetchRejected => s
    case AuthStateChanged(session) => Observe(s, session)
  }

  /** Applies the events in arrival order. Nothing ever sets `loading`
      again, so a gate that has finished loading stays loaded. */
  function Run(s: GateState, events: seq<AuthEvent>): (r: GateState)
    ensures r.loading ==> s.loading
    decreases |events|
  {
    if |events| == 0 then s else Step(Run(s, events[..|events| - 1]), events[|events| - 1])
  }

  /** The render decision: spinner while loading, then the login redirect
      (checked first), then the verification redirect, then the page. */
  function Render(s: GateState): (v: View)
    ensures v == Spinner <==> s.loading
    ensures v == Redirect(LoginPath, true) <==> !s.loading && !s.authenticated
    ensures v == Redirect(VerifyEmailPath, true) <==> !s.loading && s.authenticated && !s.emailConfirmed
    ensures v == Children <==> !s.loading && s.authenticated && s.emailConfirmed
  {
    if s.loading then Spinner
    else if !s.authenticated then Redirect(LoginPath, true)
    else if !s.emailConfirmed then Redirect(VerifyEmailPath, true)
    else Children
  }

  // ---------------------------------------------------------------------
  // Reference: the access verdict computed from one session

  datatype Verdict = Unauthenticated | Unverified | Authorized

  /** The verdict a session earns: no session, a session without a
      (non-empty) confirmation timestamp, or a confirmed one. */
  function VerdictOf(session: Option<Session>): Verdict
  {
    if session.None? then Unauthenticated
    else if !Truthy(session.value.user.emailConfirmedAt) then Unverified
    else Authorized
  }

  /** What each verdict shows. */
  function ViewOf(v: Verdict): View
  {
    match v
    case Unauthenticated => Redirect(LoginPath, true)
    case Unverified => Redirect(VerifyEmailPath, true)
    case Authorized => Children
  }

  /** Some event in the sequence is a resolved fetch. */
  predicate Fetched(events: seq<AuthEvent>)
  {
    exists i :: 0 <= i < |events| && events[i].SessionFetched?
  }

  /** The session carried by the most recent event that carries one, from
      either source. */
  function LastSession(events: seq<AuthEvent>): Option<Option<Session>>
    decreases |events|
  {
    if |events| == 0 then None
    else
      match events[|events| - 1]
      case SessionFetched(session) => Some(session)
      case AuthStateChanged(session) => Some(session)
      case SessionFetchRejected => LastSession(events[..|events| - 1])
  }

  // ---------------------------------------------------------------------
  // Properties of the gate over arbitrary event sequences

  /** The gate stays loading exactly until a fetch has resolved: a
      notification arriving first, or a rejected fetch, leaves it loading. */
  lemma {:induction false} LoadingUntilFetched(s: GateState, events: seq<AuthEvent>)
    ensures Run(s, events).loading <==> s.loading && !Fetched(events)
    decreases |events|
  {
    if |events| > 0 {
      var prefix := events[..|events| - 1];
      LoadingUntilFetched(s, prefix);
      if Fetched(events) && !events[|events| - 1].SessionFetched? {
        var i :| 0 <= i < |events| && events[i].SessionFetched?;
        assert prefix[i] == events[i];
      }
      if Fetched(prefix) {
        var i :| 0 <= i < |prefix| && prefix[i].SessionFetched?;
        assert events[i] == prefix[i];
      }
    }
  }

  /** From mount, the gate shows the spinner, and never a redirect, until a
      fetch has resolved. */
  lemma SpinnerUntilFetched(events: seq<AuthEvent>)
    ensures Render(Run(Init(), events)) == Spinner <==> !Fetched(events)
  {
    LoadingUntilFetched(Init(), events);
  }

  /** `emailConfirmed ==> authenticated` holds after every event sequence. */
  lemma {:induction false} RunConsistent(s: GateState, events: seq<AuthEvent>)
    requires Consistent(s)
    ensures Consistent(Run(s, events))
    decreases |events|
  {
    if |events| > 0 {
      RunConsistent(s, events[..|events| - 1]);
    }
  }

  /** The last applied update wins: the two flags are those of the most
      recently delivered session, whichever source delivered it. */
  lemma {:induction false} LastUpdateWins(s: GateState, events: seq<AuthEvent>)
    requires LastSession(events).Some?
    ensures Run(s, events).authenticated <==> LastSession(events).value.Some?
    ensures Run(s, events).emailConfirmed <==> EmailConfirmed(LastSession(events).value)
    decreases |events|
  {
    if events[|events| - 1].SessionFetchRejected? {
      LastUpdateWins(s, events[..|events| - 1]);
    }
  }

  /** Once a fetch has resolved, what the gate shows is the verdict of the
      most recently delivered session. */
  lemma GateShowsLatestVerdict(events: seq<AuthEvent>)
    requires Fetched(events)
    ensures LastSession(events).Some?
    ensures Render(Run(Init(), events)) == ViewOf(VerdictOf(LastSession(events).value))
  {
    LastSessionOfFetched(events);
    LoadingUntilFetched(Init(), events);
    LastUpdateWins(Init(), events);
  }

  /** A sequence with a resolved fetch has a last delivered session. */
  lemma {:induction false} LastSessionOfFetched(events: seq<AuthEvent>)
    requires Fetched(events)
    ensures LastSession(events).Some?
    decreases |events|
  {
    var last := events[|events| - 1];
    if last.SessionFetchRejected? {
      var prefix := events[..|events| - 1];
      var i :| 0 <= i < |events| && events[i].SessionFetched?;
      assert prefix[i] == events[i];
      LastSessionOfFetched(prefix);
    }
  }

  /** The page is shown exactly when the latest session exists and is
      confirmed (and the fetch has resolved). */
  lemma ChildrenIffConfirmed(events: seq<AuthEvent>)
    ensures Render(Run(Init(), events)) == Children
        <==> Fetched(events) && LastSession(events).Some? && EmailConfirmed(LastSession(events).value)
  {
    LoadingUntilFetched(Init(), events);
    if Fetched(events) {
      GateShowsLatestVerdict(events);
    }
  }

  /** A fetch result applied after a notification overwrites it. */
  lemma FetchOverwritesEarlierChange(a: Option<Session>, b: Option<Session>)
    ensures Run(Init(), [AuthStateChanged(a), SessionFetched(b)]) == Run(Init(), [SessionFetched(b)])
  {
    assert [AuthStateChanged(a), SessionFetched(b)][..1] == [AuthStateChanged(a)];
    assert [SessionFetched(b)][..0] == [];
  }

  /** A confirmation timestamp that is present but empty is unconfirmed. */
  lemma EmptyTimestampIsUnverified(token: string, id: string, email: Option<string>)
    ensures VerdictOf(Some(Session(token, User(id, email, Some(""))))) == Unverified
  {
  }

  /** A loaded gate whose flags give the verify-email redirect gives the
      page after one notification carrying a confirmed session, with no
      fetch. This is a fact about `Step` and `Render` only: a gate that has
      rendered the redirect leaves its route and unmounts, so in the running
      program no later notification reaches it. */
  lemma VerifiedElsewhere(s: GateState, session: Session)
    requires !s.loading && Render(s) == Redirect(VerifyEmailPath, true)
    requires Truthy(session.user.emailConfirmedAt)
    ensures Render(Step(s, AuthStateChanged(Some(session)))) == Children
  {
  }

  // ---------------------------------------------------------------------
  // The subscription's lifetime

  /** Calls the mount effect and its cleanup make on the provider. */
  datatype ProviderCall = GetSession | Subscribe | Unsubscribe

  /** What React does with the component: commit a render, or unmount it. */
  datatype Lifecycle = Commit | Unmount

  /** React's bookkeeping for one mounted instance with an effect whose
      dependency list is empty. */
  datatype Host = Host(commits: nat, unmounted: bool)

  /** How React schedules an effect whose dependency list is empty: this is
      the framework's rule, not code of the component. The effect (which
      fetches the session and subscribes) runs after the first commit only;
      its cleanup (which unsubscribes) runs once, when a committed instance
      unmounts; an unmounted instance gets nothing more. An `Unmount` before
      the first commit stands for a render React threw away: it changes
      nothing and issues nothing, so a later `Commit` still subscribes. React
      never commits a thrown-away render, so that trace does not occur in the
      program, and the counts of `SubscriptionOnce` do not depend on it.
      StrictMode's extra mount-unmount-mount cycle in development is not
      modelled. */
  function HostStep(h: Host, l: Lifecycle): (r: (Host, seq<ProviderCall>))
    ensures h.unmounted ==> r == (h, [])
    ensures r.0.commits >= h.commits
    ensures Subscribe in r.1 ==> h.commits == 0 && r.0.commits == 1
    ensures Unsubscribe in r.1 ==> h.commits > 0 && r.0.unmounted
    ensures r.0.unmounted ==> r.0.commits > 0 || h.unmounted
    ensures l == Unmount && h.commits == 0 ==> r == (h, [])
  {
    match l
    case Commit =>
      if h.unmounted then (h, [])
      else if h.commits == 0 then (h.(commits := 1), [GetSession, Subscribe])
      else (h.(commits := h.commits + 1), [])
    case Unmount =>
      if h.unmounted || h.commits == 0 then (h, [])
      else (h.(unmounted := true), [Unsubscribe])
  }

  function HostRun(h: Host, ls: seq<Lifecycle>): (Host, seq<ProviderCall>)
    decreases |ls|
  {
    if |ls| == 0 then (h, [])
    else
      var (h1, calls1) := HostRun(h, ls[..|ls| - 1]);
      var (h2, calls2) := HostStep(h1, ls[|ls| - 1]);
      (h2, calls1 + calls2)
  }

  predicate IsGetSession(c: ProviderCall) { c == GetSession }
  predicate IsSubscribe(c: ProviderCall) { c == Subscribe }
  predicate IsUnsubscribe(c: ProviderCall) { c == Unsubscribe }

  /** Over any lifecycle, the subscription is taken once, on the first
      commit, and released at most once, only after it was taken; once the
      instance has unmounted it has been released exactly once. */
  lemma {:induction false} SubscriptionOnce(ls: seq<Lifecycle>)
    ensures var (h, calls) := HostRun(Host(0, false), ls);
      && Count(calls, IsSubscribe) == (if h.commits > 0 then 1 else 0)
      && Count(calls, IsGetSession) == Count(calls, IsSubscribe)
      && Count(calls, IsUnsubscribe) == (if h.unmounted then 1 else 0)
      && (h.unmounted ==> h.commits > 0)
    decreases |ls|
  {
    if |ls| > 0 {
      var (h1, calls1) := HostRun(Host(0, false), ls[..|ls| - 1]);
      SubscriptionOnce(ls[..|ls| - 1]);
      var (h2, calls2) := HostStep(h1, ls[|ls| - 1]);
      CountAppend(calls1, calls2, IsSubscribe);
      CountAppend(calls1, calls2, IsGetSession);
      CountAppend(calls1, calls2, IsUnsubscribe);
      assert [GetSession, Subscribe][..1] == [GetSession];
    }
  }
}

=== FILE: verify_email.dfy ===
/** The page an unconfirmed user is sent to: resend the sign-up
    confirmation e-mail, report the outcome as a message styled by its
    wording, or log out. */
module VerifyEmail {
  import opened Common

  const ResentText := "Verification email resent! Please check your inbox."
  const NoEmailText := "No user email found"
  const ResendFailedText := "Failed to resend email."
  const SuccessMarker := "resent"
  const LoginPath := "/login"

  datatype PageState = PageState(loading: bool, message: Option<string>)

  /** Calls the page makes, in order. */
  datatype Effect =
    | ResendSignup(email: string)   // `auth.resend({ type: 'signup', email })`
    | SignOut
    | Navigate(to: string, replace: bool)

  function Init(): (r: PageState)
    ensures !r.loading && r.message.None?
  {
    PageState(false, None)
  }

  /** The resend button is disabled while a resend runs; it is enabled
      when the page first renders. */
  predicate ResendEnabled(s: PageState)
    ensures s == Init() ==> ResendEnabled(s)
  {
    !s.loading
  }

  /** The entry of `handleResend`: `loading` is set first. */
  function StartResend(s: PageState): (r: PageState)
    ensures r.loading && r.message == s.message
  {
    s.(loading := true)
  }

  /** The part of `handleResend` after `getUser()` settles. A thrown
      lookup or a user without an e-mail ends the handler: `loading` is
      cleared and the message set. Otherwise the state is kept, still
      loading, and the resend for that address is issued. */
  function SettleLookup(s: PageState, lookup: Result<Option<User>>): (r: (PageState, seq<Effect>))
    ensures lookup.Err? ==> r.1 == [] && r.0 == PageState(false, Some(MessageOr(lookup.message, ResendFailedText)))
    ensures lookup.Ok? && (lookup.value.None? || !Truthy(lookup.value.value.email)) ==>
      r.1 == [] && r.0 == PageState(false, Some(NoEmailText))
    ensures lookup.Ok? && lookup.value.Some? && Truthy(lookup.value.value.email) ==>
      r.1 == [ResendSignup(lookup.value.value.email.value)] && r.0 == s
    ensures r.1 != [] ==> r.1[0].email != ""
  {
    match lookup
    case Err(message) => (PageState(false, Some(MessageOr(message, ResendFailedText))), [])
    case Ok(user) =>
      if user.None? || !Truthy(user.value.email) then (PageState(false, Some(NoEmailText)), [])
      else (s, [ResendSignup(user.value.email.value)])
  }

  /** The part of `handleResend` after the resend settles: the fixed
      success text, or the error's message (or the fixed fallback), with
      `loading` cleared. */
  function SettleResend(s: PageState, resend: Result<()>): (r: PageState)
    ensures !r.loading && r.message.Some?
    ensures resend.Ok? ==> r.message.value == ResentText
    ensures resend.Err? ==> r.message.value == MessageOr(resend.message, ResendFailedText)
  {
    match resend
    case Ok(_) => PageState(false, Some(ResentText))
    case Err(message) => PageState(false, Some(MessageOr(message, ResendFailedText)))
  }

  /** The rest of `handleResend` with nothing else happening meanwhile,
      given how `getUser()` settled and, when the user has an e-mail, how
      the resend settled. `loading` is cleared on every path; the message
      is the fixed success text, the thrown error's message, or the fixed
      fallback. */
  function FinishResend(s: PageState, lookup: Result<Option<User>>, resend: Result<()>): (r: (PageState, seq<Effect>))
    ensures !r.0.loading && r.0.message.Some?
    ensures lookup.Err? ==> r.1 == [] && r.0.message.value == MessageOr(lookup.message, ResendFailedText)
    ensures lookup.Ok? && (lookup.value.None? || !Truthy(lookup.value.value.email)) ==>
      r.1 == [] && r.0.message.value == NoEmailText
    ensures lookup.Ok? && lookup.value.Some? && Truthy(lookup.value.value.email) ==>
      && r.1 == [ResendSignup(lookup.value.value.email.value)]
      && r.0.message.value == (if resend.Ok? then ResentText else MessageOr(resend.message, ResendFailedText))
  {
    var (looked, calls) := SettleLookup(s, lookup);
    if calls == [] then (looked, []) else (SettleResend(looked, resend), calls)
  }

  /** A resend that starts from an enabled button disables it until it
      finishes, and re-enables it afterwards whatever happened. */
  lemma ResendReenables(s: PageState, lookup: Result<Option<User>>, resend: Result<()>)
    requires ResendEnabled(s)
    ensures !ResendEnabled(StartResend(s))
    ensures ResendEnabled(FinishResend(StartResend(s), lookup, resend).0)
  {
  }

  /** The part of `handleLogout` after `signOut()` settles: a resolved
      sign-out goes to the login page without replacing history; a
      rejected one escapes the handler before the navigation. */
  function SettleSignOut(signOut: Result<()>): (effects: seq<Effect>)
    ensures signOut.Ok? ==> effects == [Navigate(LoginPath, false)]
    ensures signOut.Err? ==> effects == []
  {
    if signOut.Ok? then [Navigate(LoginPath, false)] else []
  }

  /** `handleLogout` with nothing else happening meanwhile: sign out, then
      go to the login page exactly when the sign-out resolved. */
  function Logout(signOut: Result<()>): (effects: seq<Effect>)
    ensures |effects| >= 1 && effects[0] == SignOut
    ensures |effects| == 2 <==> signOut.Ok?
    ensures |effects| == 2 ==> effects[1] == Navigate(LoginPath, false)
  {
    [SignOut] + SettleSignOut(signOut)
  }

  /** A message is shown in the success style when it mentions "resent";
      a message too short to hold that word never is. */
  predicate SuccessStyled(message: string)
    ensures SuccessStyled(message) ==> |message| >= |SuccessMarker|
  {
    Contains(message, SuccessMarker)
  }

  // ---------------------------------------------------------------------
  // Which messages get the success style

  lemma ResentTextIsSuccess()
    ensures SuccessStyled(ResentText)
  {
    var m := ResentText;
    assert m[19] == 'r';
    assert m[20] == 'e';
    assert m[21] == 's';
    assert m[22] == 'e';
    assert m[23] == 'n';
    assert m[24] == 't';
    assert m[19..][..6] == SuccessMarker;
  }

  lemma NoEmailTextIsError()
    ensures !SuccessStyled(NoEmailText)
  {
    NotContainsMissingChar(NoEmailText, SuccessMarker, 5);
  }

  /** The only 't' in the fallback text is the one of "to". */
  lemma OnlyOneT()
    ensures forall n :: 0 <= n < |ResendFailedText| && ResendFailedText[n] == 't' ==> n == 7
  {
    var a, b := "Failed ", "o resend email.";
    assert ResendFailedText == a + "t" + b;
    assert 't' !in a && 't' !in b;
    forall n | 0 <= n < |ResendFailedText| && n != 7
      ensures ResendFailedText[n] != 't'
    {
      if n < 7 {
        assert ResendFailedText[n] == a[n];
      } else {
        assert ResendFailedText[n] == b[n - 8];
      }
    }
  }

  lemma ResendFailedTextIsError()
    ensures !SuccessStyled(ResendFailedText)
  {
    OnlyOneT();
    NotContainsAtUniqueChar(ResendFailedText, SuccessMarker, 5, 7);
  }

  /** The message after a resend is success-styled exactly when the resend
      went through, or when the error text that replaced it happens to
      contain "resent": the style follows the wording, not the outcome. */
  lemma StyleFollowsWording(s: PageState, lookup: Result<Option<User>>, resend: Result<()>)
    ensures var m := FinishResend(s, lookup, resend).0.message.value;
      SuccessStyled(m) <==>
        || (lookup.Ok? && lookup.value.Some? && Truthy(lookup.value.value.email) && resend.Ok?)
        || (lookup.Err? && Truthy(lookup.message) && SuccessStyled(lookup.message.value))
        || (lookup.Ok? && lookup.value.Some? && Truthy(lookup.value.value.email) && resend.Err?
            && Truthy(resend.message) && SuccessStyled(resend.message.value))
  {
    ResentTextIsSuccess();
    NoEmailTextIsError();
    ResendFailedTextIsError();
  }

  // ---------------------------------------------------------------------
  // The page over a sequence of clicks and settlements

  /** Which `await` of `handleResend` is outstanding, if any. */
  datatype Pending = Idle | AwaitingUser | AwaitingResend

  /** The page, the resend handler's progress, and how many logout
      handlers are waiting on `signOut()`: the Log Out button is never
      disabled, so several can be waiting, and a resend can be too. */
  datatype Page = Page(view: PageState, resend: Pending, logouts: nat)

  /** A click, or the settling of one outstanding call. */
  datatype PageEvent =
    | ClickResend
    | UserSettled(lookup: Result<Option<User>>)
    | ResendSettled(outcome: Result<()>)
    | ClickLogout
    | SignOutSettled(signOut: Result<()>)

  /** Delivers one event. A click on the disabled resend button does
      nothing, and a settlement arrives only for an outstanding call. */
  function Deliver(m: Page, e: PageEvent): (r: (Page, seq<Effect>))
    ensures e.ClickResend? && !ResendEnabled(m.view) ==> r == (m, [])
    ensures e.ClickResend? && ResendEnabled(m.view) ==> r.1 == [] && r.0.resend == AwaitingUser && r.0.view.loading
    ensures e.UserSettled? && m.resend != AwaitingUser ==> r == (m, [])
    ensures e.ResendSettled? && m.resend != AwaitingResend ==> r == (m, [])
    ensures e.ClickLogout? ==> r.1 == [SignOut] && r.0.logouts == m.logouts + 1
    ensures e.SignOutSettled? && m.logouts == 0 ==> r == (m, [])
    ensures e.SignOutSettled? && m.logouts > 0 ==>
      r.0.logouts == m.logouts - 1 && r.1 == SettleSignOut(e.signOut)
  {
    match e
    case ClickResend =>
      if ResendEnabled(m.view) then (m.(view := StartResend(m.view), resend := AwaitingUser), []) else (m, [])
    case UserSettled(lookup) =>
      if m.resend != AwaitingUser then (m, [])
      else
        var (v, calls) := SettleLookup(m.view, lookup);
        (m.(view := v, resend := if calls == [] then Idle else AwaitingResend), calls)
    case ResendSettled(outcome) =>
      if m.resend != AwaitingResend then (m, [])
      else (m.(view := SettleResend(m.view, outcome), resend := Idle), [])
    case ClickLogout => (m.(logouts := m.logouts + 1), [SignOut])
    case SignOutSettled(signOut) =>
      if m.logouts == 0 then (m, [])
      else (m.(logouts := m.logouts - 1), SettleSignOut(signOut))
  }

  function Replay(events: seq<PageEvent>): (Page, seq<Effect>)
    decreases |events|
  {
    if |events| == 0 then (Page(Init(), Idle, 0), [])
    else
      var (m, log) := Replay(events[..|events| - 1]);
      var (m', effects) := Deliver(m, events[|events| - 1]);
      (m', log + effects)
  }

  predicate IsSignOut(e: Effect) { e.SignOut? }
  predicate IsNavigate(e: Effect) { e.Navigate? }

  /** The shape of any log of the page: a resend always carries a non-empty
      address, and a navigation always goes to the login page, after some
      sign-out. */
  ghost predicate LogShape(log: seq<Effect>)
  {
    && (forall i :: 0 <= i < |log| && log[i].ResendSignup? ==> log[i].email != "")
    && (forall i :: 0 <= i < |log| && log[i].Navigate? ==>
          log[i] == Navigate(LoginPath, false) && exists j :: 0 <= j < i && log[j] == SignOut)
  }

  /** The page's invariant: the page is loading exactly while a resend is
      outstanding, and sign-outs cover the navigations made plus the
      logouts still waiting. */
  ghost predicate PageInvariant(m: Page, log: seq<Effect>)
  {
    && (m.view.loading <==> m.resend != Idle)
    && Count(log, IsNavigate) + m.logouts <= Count(log, IsSignOut)
    && LogShape(log)
  }

  /** What one delivery can emit. */
  predicate PageChunk(effects: seq<Effect>)
  {
    || effects == []
    || effects == [SignOut]
    || effects == [Navigate(LoginPath, false)]
    || (|effects| == 1 && effects[0].ResendSignup? && effects[0].email != "")
  }

  lemma LogShapeAppend(log: seq<Effect>, effects: seq<Effect>)
    requires LogShape(log) && PageChunk(effects)
    requires effects == [Navigate(LoginPath, false)] ==> Count(log, IsSignOut) > 0
    ensures LogShape(log + effects)
  {
    var full := log + effects;
    if effects == [Navigate(LoginPath, false)] {
      CountPositive(log, IsSignOut);
    }
    forall i | 0 <= i < |full| && full[i].Navigate?
      ensures full[i] == Navigate(LoginPath, false) && exists j :: 0 <= j < i && full[j] == SignOut
    {
      if i < |log| {
        var j :| 0 <= j < i && log[j] == SignOut;
        assert full[j] == SignOut;
      } else {
        var j :| 0 <= j < |log| && IsSignOut(log[j]);
        assert full[j] == SignOut;
      }
    }
  }

  lemma DeliverPreserves(m: Page, log: seq<Effect>, e: PageEvent)
    requires PageInvariant(m, log)
    ensures PageInvariant(Deliver(m, e).0, log + Deliver(m, e).1)
  {
    var (m', effects) := Deliver(m, e);
    assert PageChunk(effects);
    CountAppend(log, effects, IsNavigate);
    CountAppend(log, effects, IsSignOut);
    assert [SignOut][..0] == [] && [Navigate(LoginPath, false)][..0] == [];
    LogShapeAppend(log, effects);
  }

  /** Over any interleaving of clicks and settlements, including a logout
      clicked while a resend is outstanding: the page is loading exactly
      while a resend is outstanding, every resend goes to a non-empty
      address, every navigation goes to the login page after a sign-out,
      and navigations never outnumber sign-outs. */
  lemma {:induction false} ReplayShape(events: seq<PageEvent>)
    ensures PageInvariant(Replay(events).0, Replay(events).1)
    decreases |events|
  {
    if |events| > 0 {
      var prefix := events[..|events| - 1];
      ReplayShape(prefix);
      var (m, log) := Replay(prefix);
      DeliverPreserves(m, log, events[|events| - 1]);
    }
  }

  /** Scenario: Log Out clicked while the resend waits on `getUser()`. The
      resend lands between the sign-out and the navigation. */
  lemma LogoutDuringResend(address: string)
    requires address != ""
    ensures var user := User("u", Some(address), None);
      Replay([ClickResend, ClickLogout, UserSettled(Ok(Some(user))), SignOutSettled(Ok(()))]).1
        == [SignOut, ResendSignup(address), Navigate(LoginPath, false)]
  {
    var user := User("u", Some(address), None);
    var evs := [ClickResend, ClickLogout, UserSettled(Ok(Some(user))), SignOutSettled(Ok(()))];
    var m0 := Page(Init(), Idle, 0);
    var (m1, e1) := Deliver(m0, ClickResend);
    var (m2, e2) := Deliver(m1, ClickLogout);
    var (m3, e3) := Deliver(m2, UserSettled(Ok(Some(user))));
    var (m4, e4) := Deliver(m3, SignOutSettled(Ok(())));
    assert evs[..1][..0] == [];
    assert [] + e1 == e1;
    assert Replay(evs[..1]) == (m1, e1);
    assert evs[..2][..1] == evs[..1];
    assert Replay(evs[..2]) == (m2, e1 + e2);
    assert evs[..3][..2] == evs[..2];
    assert Replay(evs[..3]) == (m3, e1 + e2 + e3);
    assert evs[..3] == evs[..|evs| - 1];
  }
}

=== FILE: wishlist.dfy ===
/** The profile's company wishlist: load the rows, add one (prepended to
    the local list) and remove one by id (filtered out of the local list). */
module Wishlist {
  import opened Common

  datatype WishlistItem = WishlistItem(id: string, companyName: string, roleTitle: string)

  datatype WishlistState = WishlistState(
    items: seq<WishlistItem>, loading: bool, newCompany: string, newRole: string, adding: bool)

  /** Calls the screen makes on the `wishlist` table. */
  datatype Effect =
    | SelectWishlist
    | InsertWishlist(userId: Option<string>, companyName: string, roleTitle: string)  // `user_id: user?.id`
    | DeleteWishlist(id: string)

  /** What the screen shows. */
  datatype View = LoadingText | EmptyMessage | Rows(rows: seq<WishlistItem>)

  function ItemId(item: WishlistItem): string
  {
    item.id
  }

  function Init(): (r: WishlistState)
    ensures r.items == [] && r.loading && r.newCompany == "" && r.newRole == "" && !r.adding
    ensures Render(r) == LoadingText && !AddEnabled(r)
  {
    WishlistState([], true, "", "", false)
  }

  /** The effect hook and `fetchWishlist`: nothing happens without a
      signed-in user; otherwise the rows are loaded (`data || []`), a
      thrown error keeps the old rows, and `loading` is cleared on every
      path. */
  function FetchWishlist(s: WishlistState, user: Option<User>, result: Result<Option<seq<WishlistItem>>>): (r: (WishlistState, seq<Effect>))
    ensures user.None? ==> r == (s, [])
    ensures user.Some? ==> r.1 == [SelectWishlist] && !r.0.loading
    ensures user.Some? ==> r.0.items == (if result.Err? then s.items else if result.value.Some? then result.value.value else [])
    ensures r.0.newCompany == s.newCompany && r.0.newRole == s.newRole && r.0.adding == s.adding
  {
    if user.None? then (s, [])
    else
      var items := match result
        case Ok(Some(rows)) => rows
        case Ok(None) => []
        case Err(_) => s.items;
      (s.(items := items, loading := false), [SelectWishlist])
  }

  /** The form is rendered only once loading is over, and its add button
      is disabled while an insert runs. */
  predicate AddEnabled(s: WishlistState)
    ensures AddEnabled(s) ==> Render(s) != LoadingText
  {
    !s.loading && !s.adding
  }

  /** The signed-in user's id, or nothing: `user?.id`. */
  function UserId(user: Option<User>): (id: Option<string>)
    ensures id.Some? <==> user.Some?
    ensures user.Some? ==> id.value == user.value.id
  {
    if user.Some? then Some(user.value.id) else None
  }

  /** The part of `addItem` before its `await`: with either field empty it
      returns at once; otherwise it sets `adding` and issues the insert,
      tagged with the signed-in user's id. */
  function StartAdd(s: WishlistState, user: Option<User>): (r: (WishlistState, seq<Effect>))
    ensures s.newCompany == "" || s.newRole == "" ==> r == (s, [])
    ensures s.newCompany != "" && s.newRole != "" ==>
      r.0 == s.(adding := true) && r.1 == [InsertWishlist(UserId(user), s.newCompany, s.newRole)]
  {
    if s.newCompany == "" || s.newRole == "" then (s, [])
    else (s.(adding := true), [InsertWishlist(UserId(user), s.newCompany, s.newRole)])
  }

  /** The part of `addItem` after the insert settles. `captured` is the list
      the handler's closure saw when the click happened: the new row is put
      in front of it, not in front of whatever the list holds by now. On
      success both fields are cleared; on error only `adding` changes. */
  function SettleAdd(s: WishlistState, captured: seq<WishlistItem>, result: Result<WishlistItem>): (r: WishlistState)
    ensures !r.adding && r.loading == s.loading
    ensures result.Ok? ==>
      && |r.items| == |captured| + 1 && r.items[0] == result.value && r.items[1..] == captured
      && r.newCompany == "" && r.newRole == ""
    ensures result.Err? ==> r == s.(adding := false)
  {
    match result
    case Ok(row) => s.(items := [row] + captured, newCompany := "", newRole := "", adding := false)
    case Err(_) => s.(adding := false)
  }

  /** `addItem` with nothing else happening while the insert is out: the
      captured list is the current one. With either field empty, nothing
      happens. Otherwise one insert is made; on success the returned row
      is put in front of the old rows and both fields are cleared, on error
      nothing but `adding` changes, and `adding` is false afterwards either
      way. */
  function AddItem(s: WishlistState, user: Option<User>, result: Result<WishlistItem>): (r: (WishlistState, seq<Effect>))
    ensures s.newCompany == "" || s.newRole == "" ==> r == (s, [])
    ensures s.newCompany != "" && s.newRole != "" ==>
      && r.1 == [InsertWishlist(UserId(user), s.newCompany, s.newRole)]
      && !r.0.adding && r.0.loading == s.loading
    ensures s.newCompany != "" && s.newRole != "" && result.Ok? ==>
      && |r.0.items| == |s.items| + 1 && r.0.items[0] == result.value && r.0.items[1..] == s.items
      && r.0.newCompany == "" && r.0.newRole == ""
    ensures s.newCompany != "" && s.newRole != "" && result.Err? ==>
      r.0 == s.(adding := false)
  {
    var (started, calls) := StartAdd(s, user);
    if calls == [] then (s, []) else (SettleAdd(started, s.items, result), calls)
  }

  /** The part of `removeItem` after the delete settles. On success the
      list becomes `captured`, the list the click's closure saw, without
      every row carrying that id, the others in order; on error nothing
      changes. */
  function SettleRemove(s: WishlistState, captured: seq<WishlistItem>, id: string, result: Result<()>): (r: WishlistState)
    ensures result.Err? ==> r == s
    ensures result.Ok? ==> r == s.(items := r.items)
    ensures result.Ok? ==> forall x :: x in r.items <==> x in captured && x.id != id
  {
    match result
    case Ok(_) => s.(items := RemoveKey(captured, ItemId, id))
    case Err(_) => s
  }

  /** `removeItem` with nothing else happening while the delete is out: one
      delete; on success every row with that id leaves the list, the others
      stay in order; on error the list is kept. */
  function RemoveItem(s: WishlistState, id: string, result: Result<()>): (r: (WishlistState, seq<Effect>))
    ensures r.1 == [DeleteWishlist(id)]
    ensures result.Err? ==> r.0 == s
    ensures result.Ok? ==> r.0 == s.(items := r.0.items)
    ensures result.Ok? ==> forall x :: x in r.0.items <==> x in s.items && x.id != id
  {
    (SettleRemove(s, s.items, id, result), [DeleteWishlist(id)])
  }

  /** The render choice. */
  function Render(s: WishlistState): (v: View)
    ensures v == LoadingText <==> s.loading
    ensures v == EmptyMessage <==> !s.loading && s.items == []
    ensures v.Rows? ==> v.rows == s.items && |v.rows| > 0
  {
    if s.loading then LoadingText
    else if |s.items| == 0 then EmptyMessage
    else Rows(s.items)
  }

  // ---------------------------------------------------------------------
  // What the screen shows after each handler

  /** After a load with a signed-in user the screen shows the returned rows,
      or the empty message when none came back; after a failed load it
      shows the rows it had. */
  lemma FetchThenRender(s: WishlistState, u: User, result: Result<Option<seq<WishlistItem>>>)
    ensures Render(FetchWishlist(s, Some(u), result).0) ==
      if result.Ok? then
        (if result.value.None? || result.value.value == [] then EmptyMessage else Rows(result.value.value))
      else (if s.items == [] then EmptyMessage else Rows(s.items))
  {
  }

  /** After a successful add the first row shown is the new one, followed by
      the rows shown before, in the same order. */
  lemma AddThenRender(s: WishlistState, user: Option<User>, row: WishlistItem)
    requires AddEnabled(s) && s.newCompany != "" && s.newRole != ""
    ensures Render(AddItem(s, user, Ok(row)).0) == Rows([row] + s.items)
  {
    var r := AddItem(s, user, Ok(row)).0;
    assert r.items == [r.items[0]] + r.items[1..];
  }

  /** After a successful remove the empty message appears exactly when every
      row carried the removed id; otherwise the rows shown are exactly the
      old rows with another id. */
  lemma RemoveThenRender(s: WishlistState, id: string)
    requires !s.loading
    ensures var v := Render(RemoveItem(s, id, Ok(())).0);
      && (v == EmptyMessage <==> forall i :: 0 <= i < |s.items| ==> s.items[i].id == id)
      && (v.Rows? ==> forall x :: x in v.rows <==> x in s.items && x.id != id)
  {
    var r := RemoveItem(s, id, Ok(())).0.items;
    if r != [] {
      assert r[0] in r;
    }
    forall i | 0 <= i < |s.items| && s.items[i].id != id
      ensures r != []
    {
      assert s.items[i] in s.items;
    }
  }

  /** Starting an add disables the add button; settling it, either way,
      enables it again. */
  lemma AddDisablesButton(s: WishlistState, user: Option<User>, result: Result<WishlistItem>)
    requires AddEnabled(s) && s.newCompany != "" && s.newRole != ""
    ensures !AddEnabled(StartAdd(s, user).0)
    ensures AddEnabled(SettleAdd(StartAdd(s, user).0, s.items, result))
  {
  }

  /** Two removes started from the same rendered list, both succeeding: each
      filters the list its own click captured, so the second one to settle
      brings back the row the first one removed. */
  lemma OverlappingRemovesRestoreRow(s: WishlistState, a: string, b: string, row: WishlistItem)
    requires row in s.items && row.id == a && a != b
    ensures var first := SettleRemove(s, s.items, a, Ok(()));
      && row !in first.items
      && row in SettleRemove(first, s.items, b, Ok(())).items
  {
  }

  /** A successful delete keeps the other rows in their original order. */
  lemma RemoveKeepsOrder(s: WishlistState, id: string)
    ensures var r := RemoveItem(s, id, Ok(())).0.items;
      OrderedSelection(r, s.items, KeptPositions(s.items, ItemId, id), ItemId, id)
  {
    RemoveKeyPreservesOrder(s.items, ItemId, id);
  }

  /** Removing a row just added, whose id is new to the list, gives back
      the list as it was before the add. */
  lemma AddThenRemove(s: WishlistState, user: Option<User>, row: WishlistItem)
    requires s.newCompany != "" && s.newRole != ""
    requires forall i :: 0 <= i < |s.items| ==> s.items[i].id != row.id
    ensures RemoveItem(AddItem(s, user, Ok(row)).0, row.id, Ok(())).0.items == s.items
  {
    PrependThenRemove(row, s.items, ItemId);
  }
}
